=== FILE: README.md ===
# testu core bookkeeping, modelled in Dafny

This project models the sequential bookkeeping at the heart of the `testu` C++
unit-test framework (namespaces `tst` and the legacy `testy`):

- **The test catalog** (`tst::suite`, `testy::suite`). A suite keeps test cases keyed by id.
  A test carries marks (`flag::disabled`, `flag::no_parallel`), a result slot that starts
  as `status::not_run`, and a message. A suite also has per-suite outcome counters, from
  which `num_skipped()` is computed. Parametrized registration expands one call into `n`
  tests named `id[0] … id[n-1]`. Every generated test gets the caller's marks, and the
  `add_disabled` forms add the `disabled` mark. When some `id[k]` is already taken, the
  call throws there, and the tests `id[0] … id[k-1]` it added before stay in the suite. The
  model returns that partial suite with the error (`Registry.Refusal`).
- **The reporter** (`tst::reporter`). It is a state machine fed by the `report_pass`,
  `report_failure`, `report_error` and `report_disabled_test` events. Each event records
  one terminal status and a message, and bumps the matching per-suite and global counter.
  `is_failed()` is a predicate over the counters. `report` runs entirely under one mutex,
  so a run is modelled as a sequence of atomic steps (`ApplyAll`).
- **The assertion helpers** (`tst/check.hpp`). These are `check`, the `check_result`
  object, and the comparisons `check_eq/ne/lt/gt/le/ge` in their print and print-less
  forms. A raised check failure is the value `Outcome.Raise(message)`, not a C++
  exception. Compared values are `int`.

Files and modules:

| file | module | models |
|---|---|---|
| `wrappers.dfy` | `Wrappers` | `Option`, `Result` in place of exceptions |
| `decimal.dfy` | `Decimal` | `ostream << n` for integers, and its inverse |
| `registry.dfy` | `Registry` | closure shapes a suite stores, insertion under a fresh id, the `id[i]` registration loop |
| `lex_order.dfy` | `LexOrder` | `std::string` ordering, which fixes `std::map` iteration order |
| `tst_suite.dfy` | `TstSuite` | `tst::suite` |
| `tst_reporter.dfy` | `TstReporter` | `tst::reporter` |
| `tst_check.dfy` | `TstCheck` | `tst/check.hpp` |
| `testy_suite.dfy` | `TestySuite` | `testy::suite` |
| `scenario.dfy` | `Scenario` | a worked run over a four-test suite |

Modelling decisions:

- A user procedure is an opaque value of type `B`. The closure a suite stores is a
  `Registry.Procedure` that records its shape: the plain procedure, `[proc, param]`,
  `[proc]` with a fixture, or `[proc, param]` with a fixture.
- Several bodies are declared in the headers but are not part of this model:
  `suite::add(id, flags, proc)`, `suite::add_disabled(id, flags, proc)`,
  `testy::suite::add(id, proc)`, `make_indexed_id`, `reporter::report`,
  `check(bool, ...)`, the `check_result` move constructor and `~check_result`.
  Their behaviour is taken from the declarations and doc comments where those
  say it:
  - `add_disabled(id, flags, proc)` adds the `disabled` mark to the given flags
    (suite.hpp:94-102).
  - `make_indexed_id(id, i)` is `id + "[" + i + "]"`, exactly as `testy` spells it out.
  - `report` writes the status and message into the test's slot. It then bumps the
    per-suite counter (the reporter is a `friend` of `suite`, whose counters are `mutable`)
    and the global counter.
  - The move constructor leaves the moved-from object not failed (check.hpp:102-106).
  - `~check_result` raises the inserted text when the result is failed (check.hpp:80-87, 124).
- Three rules are assumptions of this model. No declaration or comment states them:
  - `add` refuses an id that is already present (`DuplicateId`).
  - `report` refuses an id that is not registered (`UnknownTest`).
  - `report` refuses a test that already has a result (`AlreadyReported`).
  `TstReporter.ApplyAllKeepsValid` relies on the last of these: a second report
  on one test is refused, so it never counts that test twice.
- The status `status::disabled` and the mark `flag::disabled` share a name. They are
  written `Status.Disabled` and `Flag.Disabled`.
- The parametrized `add` loops call `add` once per parameter. When the `k`-th call
  throws, the model returns `Failure(DuplicateId(id[k]))` for the first taken index `k`.
- `std::string` keys are ordered by `LexOrder.Less`, which compares characters by code point.
  `std::string::operator<` compares bytes as `unsigned char`. The two orders agree when ids are UTF-8.

## Model

| member | source | states |
|---|---|---|
| `Decimal.NatToString` | src/testy/suite.hpp:41 | the index is written in canonical decimal: at least one digit, no leading zero |
| `Decimal.ParseNatToString` | src/testy/suite.hpp:41 | reading the written index back gives the index |
| `Decimal.NatToStringParse` | src/testy/suite.hpp:41 | every canonical digit string is the rendering of the number it denotes |
| `Decimal.NatToStringInjective` | src/testy/suite.hpp:41 | two indices are written the same iff they are equal |
| `Decimal.IntToString` | src/tst/check.hpp:225 | a compared value is written as at least one character, starting with `-` iff it is negative, followed by the canonical digits of its magnitude |
| `Decimal.ParseIntToString` | src/tst/check.hpp:225 | reading a written value back gives the value |
| `Decimal.IntToStringParse` | src/tst/check.hpp:225 | every string that reads as a value is exactly how that value is written |
| `Decimal.IntToStringInjective` | src/tst/check.hpp:225 | two compared values are written the same iff they are equal, so the message of `check_eq(a, b)` tells the operands apart |
| `Registry.IndexedId` | src/tst/suite.hpp:115-119 | a generated id starts with `id`, continues with `[` and ends with `]` |
| `Registry.ParseIndexedId` | src/testy/suite.hpp:40-41 | the index can be recovered from `id[i]` |
| `Registry.ParseIndexSound` | src/testy/suite.hpp:40-41 | every id from which an index is recovered is exactly `id[i]` |
| `Registry.IndexedIdInjective` | src/testy/suite.hpp:40-41 | generated ids are pairwise distinct for distinct indices |
| `Registry.Insert` | src/tst/suite.hpp:47 | keyed storage: succeeds iff the id is new; adds exactly that key, grows by one, keeps every other entry |
| `Registry.InsertIndexed` | src/tst/suite.hpp:133-142 | the loop succeeds iff no generated id is taken; on success it adds exactly `n - start` entries `id[k] ↦ vals[k]` and keeps all others; on failure it names the first taken `id[k]` and returns the map it had reached, holding the old entries plus `id[start] … id[k-1]` |
| `TstSuite.NumSkipped` | src/tst/suite.hpp:56-60 | the skipped count is defined only under the assertion that the counters sum to at most `size()`, and never exceeds `size()` |
| `TstSuite.StatusPartition` | src/tst/suite.hpp:29-35 | the five statuses partition a suite's tests |
| `TstSuite.NumSkippedCountsNotRun` | src/tst/suite.hpp:56-60 | with counters consistent with results, the assertion holds and `num_skipped()` is the number of tests still `not_run` |
| `TstSuite.EmptyConsistent` | src/tst/suite.hpp:49-54 | a new suite has no tests and zero counters |
| `TstSuite.Add` | src/tst/suite.hpp:77-83 | succeeds iff the id is new; the new test has the given flags and procedure, status `not_run` (line 42) and an empty message; `size()` grows by one; nothing else changes |
| `TstSuite.AddUnmarked` | src/tst/suite.hpp:85-92 | `add(id, proc)` succeeds iff the id is new, refuses a taken id with `DuplicateId(id)`, and registers a not-run test with no marks and an empty message; old tests and counters are unchanged |
| `TstSuite.AddDisabled` | src/tst/suite.hpp:94-102 | as `add`: succeeds iff the id is new, or fails with `DuplicateId(id)`; the new test runs `proc`, is `not_run` with an empty message, and carries the given marks plus `disabled`; old tests and counters are unchanged |
| `TstSuite.AddDisabledUnmarked` | src/tst/suite.hpp:104-113 | `add_disabled(id, proc)` behaves as `add(id, proc)`, except that the new test carries the `disabled` mark alone |
| `TstSuite.UnmarkedOverloadsAddNoFlags` | src/tst/suite.hpp:90-113 | `add(id, proc)` is `add(id, {}, proc)` and `add_disabled(id, proc)` is `add_disabled(id, {}, proc)` |
| `TstSuite.DisabledOnlyAddsMark` | src/tst/suite.hpp:94-102 | `add_disabled` is the same as `add`: both accept the same ids and fail alike, and on success they differ only in the `disabled` mark of the new test |
| `TstSuite.AddParametrized` | src/tst/suite.hpp:115-143 | `n` params register exactly `n` tests `id[0] … id[n-1]`, test `i` runs `proc(params[i])` with exactly the given flags and is `not_run`; succeeds iff no such id is taken; otherwise names the first taken `id[k]` and leaves the suite holding the old tests plus `id[0] … id[k-1]`; counters never change |
| `TstSuite.AddParametrizedUnmarked` | src/tst/suite.hpp:145-162 | the flag-less parametrized form succeeds iff no `id[i]` is taken; it registers `id[i]` running `proc(params[i])`, not run and without marks, for every `i` on success and for every `i` before the first taken one on failure; old tests and counters are kept |
| `TstSuite.UnmarkedParametrizedOverloadsAddNoFlags` | src/tst/suite.hpp:145-209 | the flag-less parametrized `add` and `add_disabled` are the flagged forms with no flags given |
| `TstSuite.AddDisabledParametrized` | src/tst/suite.hpp:164-187 | succeeds iff no `id[i]` is taken, and otherwise names the first taken one, keeping the tests added before it; each generated test runs `proc(params[i])`, is not run, and carries the given flags plus `disabled`; old tests and counters are unchanged |
| `TstSuite.AddDisabledParametrizedUnmarked` | src/tst/suite.hpp:189-209 | the same success condition and failure, with the same partial suite on failure; every generated test is not run and carries exactly `{disabled}`; old tests and counters are unchanged |
| `TstSuite.DisabledParametrizedOnlyAddsMark` | src/tst/suite.hpp:177-187 | the disabled form registers the same ids as the plain form; each generated test differs only by the added `disabled` mark; old tests and counters are the same |
| `TstSuite.DisabledParametrizedFailsAlike` | src/tst/suite.hpp:177-187 | when the plain parametrized form fails, the disabled form fails on the same id, having added tests under the same ids before it |
| `TstSuite.AddKeepsConsistent` | src/tst/suite.hpp:42 | a new test is `not_run`, so counters consistent with results stay consistent |
| `TstSuite.AddParametrizedKeepsConsistent` | src/tst/suite.hpp:133-142 | the same holds for parametrized registration, both for the finished suite and for the suite left behind by a failure part-way |
| `TstSuite.ParamTests` | src/tst/suite.hpp:133-141 | the generated test `i` runs `proc(params[i])`, carries the given flags and has not run |
| `TstReporter.Fresh` | src/tst/reporter.hxx:18-33 | a new reporter has every counter at zero and is not failed |
| `TstReporter.FreshIsValid` | src/tst/reporter.hxx:18-22 | over freshly registered suites, the zero counters agree with the results |
| `TstReporter.Report` | src/tst/reporter.hxx:24-29 | accepted iff the id names a registered, not-yet-run test; writes exactly that test's status and message; bumps exactly the matching per-suite and global counter; no other test, suite or counter changes |
| `TstReporter.ReportPass` | src/tst/reporter.hxx:36-39 | records `passed` with an empty message; `is_failed()` is unchanged |
| `TstReporter.ReportFailure` | src/tst/reporter.hxx:42-48 | records `failed` with the given message; the reporter is then failed |
| `TstReporter.ReportError` | src/tst/reporter.hxx:51-57 | records `errored` with the given message; the reporter is then failed |
| `TstReporter.ReportDisabledTest` | src/tst/reporter.hxx:60-62 | records `disabled` with an empty message; `is_failed()` is unchanged |
| `TstReporter.Apply` | src/tst/reporter.hxx:35-62 | each public report call is `report` with its fixed terminal status and message |
| `TstReporter.ReportKeepsValid` | src/tst/reporter.hxx:24-29 | one atomic report keeps every per-suite and global counter equal to the number of tests with that status |
| `TstReporter.ApplyAllKeepsValid` | src/tst/reporter.hxx:24-29 | so does any sequence of reports |
| `TstReporter.FreshEventsAccepted` | src/tst/reporter.hxx:24-29 | reports on distinct, registered, not-yet-run tests are all accepted, and each counter grows by the number of events of its kind |
| `TstReporter.ApplyAllRecords` | src/tst/reporter.hxx:24-29 | after such a stream, every event's test holds that event's status and message |
| `TstReporter.ApplyAllFrame` | src/tst/reporter.hxx:24-29 | reports on other tests leave a test's slot unchanged |
| `TstReporter.CountEventsAppend` | src/tst/reporter.hxx:24-29 | the number of reports of a status in a stream is the sum over any split of the stream into two parts |
| `TstReporter.ValidSuitesHaveSkipCount` | src/tst/suite.hpp:56-60 | after any accepted reports, every suite meets the `num_skipped()` assertion, and its skipped count is its number of `not_run` tests |
| `TstReporter.IsFailedIffSomeTestFailed` | src/tst/reporter.hxx:69-71 | `is_failed()` holds iff some test is `failed` or `errored`, so passes and disabled tests alone never fail a run |
| `TstReporter.CountersCoverTests` | src/tst/reporter.hxx:18-22 | the four counters plus the `not_run` tests account for every registered test |
| `TstCheck.Check` | src/tst/check.hpp:38-55 | does nothing iff the condition holds; otherwise raises with the text `print` writes |
| `TstCheck.CheckConvertible` | src/tst/check.hpp:57-76 | the template form decides by the value's `bool` conversion, with the same outcome as the `bool` form |
| `TstCheck.CheckResultOf` | src/tst/check.hpp:127-140 | `check(c)` yields a result that is failed iff `c` is false, with nothing inserted; a passing result equals the default state |
| `TstCheck.CheckResultOfConvertible` | src/tst/check.hpp:142-159 | the template form is failed iff the value converts to `false` |
| `TstCheck.Insert` | src/tst/check.hpp:108-120 | `<<` never changes `failed`, appends the text to a failed result's message, and leaves a passing result untouched |
| `TstCheck.ConcatAppend` | src/tst/check.hpp:225 | the text of a chain of `<<` splits at any point into the text of its two halves |
| `TstCheck.ConcatFive` | src/tst/check.hpp:225 | the five pieces inserted for `check_eq(a, b)` make the message `check_eq(` a `, ` b `)` |
| `TstCheck.InsertAllIsInsertConcat` | src/tst/check.hpp:108-120 | a chain of `<<` on a failed result appends the concatenated text |
| `TstCheck.PassingMessageStaysEmpty` | src/tst/check.hpp:108-120 | a passing result stays the default state, with an empty message, whatever is inserted |
| `TstCheck.Move` | src/tst/check.hpp:102-106 | the moved-to object takes the state, and the moved-from object is no longer failed |
| `TstCheck.Destroy` | src/tst/check.hpp:80-87 | destroying a result raises iff it is failed, with the inserted text as message |
| `TstCheck.MoveRaisesOnce` | src/tst/check.hpp:104-106 | after a move, destroying both objects raises the original failure exactly once |
| `TstCheck.CheckCompareWith` | src/tst/check.hpp:180-201 | the print forms raise iff the relation fails, with message `check_xx(a, b)` followed by the `print` output |
| `TstCheck.CheckCompare` | src/tst/check.hpp:214-227 | the print-less forms are failed iff the relation fails, with message `check_xx(a, b)`; a passing result has an empty message |
| `TstCheck.PrintFormMatchesResultForm` | src/tst/check.hpp:180-227 | a print form raises exactly what the print-less result raises after `<<` of the printed text |
| `TstCheck.NegatedCheckFailsExclusively` | src/tst/check.hpp:180-567 | of a comparison and its negation (eq/ne, lt/ge, gt/le), exactly one fails |
| `TstCheck.CheckEq` | src/tst/check.hpp:214-227 | failed iff `a != b`; message `check_eq(a, b)` |
| `TstCheck.CheckEqWith` | src/tst/check.hpp:180-201 | raises iff `a != b`; message `check_eq(a, b)` then the `print` output |
| `TstCheck.CheckNe` | src/tst/check.hpp:282-295 | failed iff `a == b`; message `check_ne(a, b)` |
| `TstCheck.CheckNeWith` | src/tst/check.hpp:248-269 | raises iff `a == b`; message `check_ne(a, b)` then the `print` output |
| `TstCheck.CheckLt` | src/tst/check.hpp:350-363 | failed iff `a >= b`; message `check_lt(a, b)` |
| `TstCheck.CheckLtWith` | src/tst/check.hpp:316-337 | raises iff `a >= b`; message `check_lt(a, b)` then the `print` output |
| `TstCheck.CheckGt` | src/tst/check.hpp:418-431 | failed iff `a <= b`; message `check_gt(a, b)` |
| `TstCheck.CheckGtWith` | src/tst/check.hpp:384-405 | raises iff `a <= b`; message `check_gt(a, b)` then the `print` output |
| `TstCheck.CheckLe` | src/tst/check.hpp:486-499 | failed iff `a > b`; message `check_le(a, b)` |
| `TstCheck.CheckLeWith` | src/tst/check.hpp:452-473 | raises iff `a > b`; message `check_le(a, b)` then the `print` output |
| `TstCheck.CheckGe` | src/tst/check.hpp:554-567 | failed iff `a < b`; message `check_ge(a, b)` |
| `TstCheck.CheckGeWith` | src/tst/check.hpp:520-541 | raises iff `a < b`; message `check_ge(a, b)` then the `print` output |
| `TstCheck.LtGeExclusive` | src/tst/check.hpp:316-363 | on integers exactly one of `check_lt(a, b)` and `check_ge(a, b)` fails |
| `TstCheck.EqNeExclusive` | src/tst/check.hpp:180-295 | exactly one of `check_eq(a, b)` and `check_ne(a, b)` fails |
| `TestySuite.Add` | src/testy/suite.hpp:15-24 | succeeds iff the id is new; stores the procedure under it; grows by one |
| `TestySuite.AddWithFixture` | src/testy/suite.hpp:26-35 | adds exactly one entry under `id`: a closure that builds the fixture first |
| `TestySuite.AddParametrized` | src/testy/suite.hpp:37-50 | `n` params add exactly `n` procedures, the `i`-th under `id[i]` running `proc(params[i])`; succeeds iff no such id is taken; otherwise names the first taken `id[k]` and leaves the map holding the old procedures plus `id[0] … id[k-1]` |
| `TestySuite.AddParametrizedWithFixture` | src/testy/suite.hpp:52-66 | the same count and naming, each closure building `fixture(params[i])`; the same failure on the first taken `id[k]`, with the same partial map |
| `TestySuite.ParametrizedFormsAgreeOnIds` | src/testy/suite.hpp:37-66 | both parametrized forms accept the same suites and register the same ids; when they fail, they fail on the same id with the same ids added before it |
| `TestySuite.OrderedIds` | src/testy/suite.hpp:15 | `std::map` iteration visits each id once, in strictly ascending order |
| `Scenario.MathSuite` | src/tst/suite.hpp:85-113 | the "math" suite holds exactly "add", "div", "crash" and "skip"; none of them has run, nothing is counted, and "skip" carries the `disabled` mark |
| `Scenario.MathSuiteRegistered` | src/tst/suite.hpp:85-113 | three `add(id, proc)` calls and one `add_disabled(id, proc)` on a new suite build exactly that suite |
| `Scenario.MathRun` | src/tst/reporter.hxx:36-71 | over that suite, a run with one pass, one check failure, one other fault and one disabled test ends with one of each count and is failed |
| `Scenario.MathEventsCount` | src/tst/reporter.hxx:35-62 | the example run reports each of `passed`, `failed`, `errored` and `disabled` exactly once |
| `Scenario.MathRunRecordsDiv` | src/tst/reporter.hxx:42-48 | after that run "div" is `failed` and holds the message `check_eq(4, 5)` raised |

## Left out

- Threads, the mutex, the worker pool and parallel/serial scheduling: each `report` is one atomic step, and the run loop is not part of this model.
- Running procedures and catching exceptions: procedures are opaque values. A raised check failure is an `Outcome` value.
- `time_ms` and durations: these are wall-clock timing with no logic.
- `write_junit_report`, the `print_*` functions and `status_to_string`: these are output formatting whose bodies are not part of this model.
- `reporter::num_tests`: it is declared, but the code that updates it is not part of this model.
- `utki::source_location`: it plays no part in pass/fail logic.
- `ostream` output of arbitrary types: compared values are `int`, rendered in decimal with a leading `-` for negatives.
- `ASSERT(proc)` on empty `std::function` procedures: procedures are never empty here.
- The text of the registration exception: a duplicate id is reported as `DuplicateId(id)`.
- `TstReporter.Report`: the header does not show what C++ does when the id is unknown or the test has already been reported. The model refuses both (`UnknownTest`, `AlreadyReported`).
- `src/testy/main.cpp`: command-line parsing, help text, coloured console output and the exit code are I/O plumbing.
- Fixture construction: a fixture closure is recorded by its shape (`WithFixture`, `WithParamAndFixture`). It is not executed.

=== FILE: decimal.dfy ===
/**
 Decimal rendering of integers, as `std::ostream << n` writes them, and its
 inverse. Indexed test ids and comparison failure messages are built from it.
 */
module Decimal {
  import opened Wrappers

  predicate IsDigit(c: char) {
    '0' <= c <= '9'
  }

  predicate AllDigits(s: string) {
    forall k :: 0 <= k < |s| ==> IsDigit(s[k])
  }

  /** A digit string as an ostream writes a natural number: no leading zero. */
  predicate Canonical(s: string) {
    && |s| >= 1
    && AllDigits(s)
    && (|s| > 1 ==> s[0] != '0')
  }

  function DigitChar(d: nat): (c: char)
    requires d < 10
    ensures IsDigit(c)
  {
    ('0' as int + d) as char
  }

  function DigitValue(c: char): (d: nat)
    requires IsDigit(c)
    ensures d < 10
    ensures DigitChar(d) == c
  {
    c as int - '0' as int
  }

  /** The decimal representation of `n`, most significant digit first. */
  function NatToString(n: nat): (s: string)
    ensures Canonical(s)
    ensures n >= 10 <==> |s| > 1
    decreases n
  {
    if n < 10 then [DigitChar(n)] else NatToString(n / 10) + [DigitChar(n % 10)]
  }

  /** A leading '-' for negative values, as `std::ostream << int` writes. */
  function IntToString(a: int): (s: string)
    ensures |s| >= 1
    ensures a < 0 <==> s[0] == '-'
    ensures a < 0 ==> s[1..] == NatToString(-a)
    ensures a >= 0 ==> s == NatToString(a)
  {
    if a < 0 then "-" + NatToString(-a) else NatToString(a)
  }

  /** The value of a rendered integer: canonical digits, after a '-' for a negative value. */
  function ParseInt(s: string): Option<int> {
    if |s| >= 2 && s[0] == '-' && Canonical(s[1..]) && s[1..] != "0" then Some(0 - ParseNat(s[1..]) as int)
    else if Canonical(s) then Some(ParseNat(s))
    else None
  }

  /** Parsing undoes integer rendering. */
  lemma ParseIntToString(a: int)
    ensures ParseInt(IntToString(a)) == Some(a)
  {
    var s := IntToString(a);
    if a < 0 {
      ParseNatToString(-a);
    } else {
      ParseNatToString(a);
    }
  }

  /** Rendering undoes parsing on every string that parses. */
  lemma IntToStringParse(s: string, a: int)
    requires ParseInt(s) == Some(a)
    ensures IntToString(a) == s
  {
    if |s| >= 2 && s[0] == '-' && Canonical(s[1..]) && s[1..] != "0" {
      NatToStringParse(s[1..]);
      ParseNatPositive(s[1..]);
      assert s == "-" + s[1..];
    } else {
      NatToStringParse(s);
    }
  }

  /** Distinct integers have distinct renderings. */
  lemma IntToStringInjective(a: int, b: int)
    ensures IntToString(a) == IntToString(b) <==> a == b
  {
    if IntToString(a) == IntToString(b) {
      ParseIntToString(a);
      ParseIntToString(b);
    }
  }

  /** The value of a digit string. */
  function ParseNat(s: string): nat
    requires AllDigits(s)
  {
    if |s| == 0 then 0 else ParseNat(s[..|s| - 1]) * 10 + DigitValue(s[|s| - 1])
  }

  /** Parsing undoes rendering. */
  lemma {:induction false} ParseNatToString(n: nat)
    ensures ParseNat(NatToString(n)) == n
    decreases n
  {
    var s := NatToString(n);
    if n >= 10 {
      ParseNatToString(n / 10);
      assert s[..|s| - 1] == NatToString(n / 10);
    }
  }

  /** Rendering undoes parsing on canonical digit strings. */
  lemma {:induction false} NatToStringParse(s: string)
    requires Canonical(s)
    ensures NatToString(ParseNat(s)) == s
    decreases |s|
  {
    if |s| > 1 {
      var p := s[..|s| - 1];
      assert Canonical(p) by {
        assert forall k :: 0 <= k < |p| ==> p[k] == s[k];
      }
      ParseNatPositive(p);
      NatToStringParse(p);
      assert s == p + [s[|s| - 1]];
    }
  }

  /** A digit string that does not start with '0' denotes a positive number. */
  lemma {:induction false} ParseNatPositive(s: string)
    requires AllDigits(s)
    requires |s| >= 1 && s[0] != '0'
    ensures ParseNat(s) >= 1
    decreases |s|
  {
    if |s| > 1 {
      var p := s[..|s| - 1];
      assert AllDigits(p) by {
        assert forall k :: 0 <= k < |p| ==> p[k] == s[k];
      }
      ParseNatPositive(p);
    }
  }

  /** Distinct numbers have distinct renderings. */
  lemma NatToStringInjective(i: nat, j: nat)
    ensures NatToString(i) == NatToString(j) <==> i == j
  {
    if NatToString(i) == NatToString(j) {
      ParseNatToString(i);
      ParseNatToString(j);
    }
  }
}

=== FILE: lex_order.dfy ===
/**
 The strict order `std::string::operator<` imposes on keys: lexicographic on
 characters, a proper prefix before its extensions. A `std::map<std::string, _>`
 iterates its keys in this order. `std::string` compares bytes as
 `unsigned char`; comparing code points gives the same order when the ids are
 UTF-8 encoded.
 */
module LexOrder {

  predicate Less(a: string, b: string)
    decreases |a|
  {
    if |a| == 0 then |b| > 0
    else if |b| == 0 then false
    else if a[0] != b[0] then a[0] < b[0]
    else Less(a[1..], b[1..])
  }

  lemma {:induction false} Irreflexive(a: string)
    ensures !Less(a, a)
    decreases |a|
  {
    if |a| > 0 {
      Irreflexive(a[1..]);
    }
  }

  lemma {:induction false} Transitive(a: string, b: string, c: string)
    requires Less(a, b) && Less(b, c)
    ensures Less(a, c)
    decreases |a|
  {
    if |a| > 0 && a[0] == b[0] && b[0] == c[0] {
      Transitive(a[1..], b[1..], c[1..]);
    }
  }

  /** Any two distinct strings are ordered one way or the other. */
  lemma {:induction false} Total(a: string, b: string)
    ensures Less(a, b) || a == b || Less(b, a)
    decreases |a|
  {
    if |a| > 0 && |b| > 0 && a[0] == b[0] {
      Total(a[1..], b[1..]);
      if a[1..] == b[1..] {
        assert a == [a[0]] + a[1..] && b == [b[0]] + b[1..];
      }
    }
  }

  /** Keys listed in strictly ascending order, hence without repetition. */
  predicate StrictlyAscending(s: seq<string>) {
    forall i, j :: 0 <= i < j < |s| ==> Less(s[i], s[j])
  }
}

=== FILE: registry.dfy ===
/**
 Registration bookkeeping shared by both suite flavours: the shapes of the
 closures a suite stores, inserting under a fresh id, and the loop that
 parametrized registration runs, naming each test `id[i]`.
 */
module Registry {
  import opened Wrappers
  import opened Decimal

  /**
   The closure a suite stores for a test. `B` is the user's procedure (opaque
   here) and `A` the parameter type of parametrized tests.
   - Plain: the user's `void()` procedure itself.
   - WithParam: `[proc, param]{ proc(param); }`.
   - WithFixture: `[proc]{ fixture f; proc(f); }`.
   - WithParamAndFixture: `[proc, param]{ fixture f(param); proc(param, f); }`.
   */
  datatype Procedure<B, A> =
    | Plain(body: B)
    | WithParam(body: B, param: A)
    | WithFixture(body: B)
    | WithParamAndFixture(body: B, param: A)

  /** Registering a second test under an id already present. */
  datatype RegistrationError = DuplicateId(id: string)

  /** The id of the `i`-th test generated by parametrized registration. */
  function IndexedId(id: string, i: nat): (s: string)
    ensures |s| == |id| + |NatToString(i)| + 2
    ensures s[..|id|] == id
    ensures s[|id|] == '[' && s[|s| - 1] == ']'
  {
    id + "[" + NatToString(i) + "]"
  }

  /** Recovers the index from an id of the form `id[i]`; the inverse of IndexedId. */
  function ParseIndex(id: string, s: string): (r: Option<nat>)
    ensures r.Some? ==> |s| >= |id| + 3 && s[..|id|] == id
  {
    if && |s| >= |id| + 3
       && s[..|id|] == id
       && s[|id|] == '['
       && s[|s| - 1] == ']'
       && Canonical(s[|id| + 1..|s| - 1])
    then Some(ParseNat(s[|id| + 1..|s| - 1]))
    else None
  }

  lemma ParseIndexedId(id: string, i: nat)
    ensures ParseIndex(id, IndexedId(id, i)) == Some(i)
  {
    var s := IndexedId(id, i);
    assert s[|id| + 1..|s| - 1] == NatToString(i);
    ParseNatToString(i);
  }

  lemma ParseIndexSound(id: string, s: string, i: nat)
    requires ParseIndex(id, s) == Some(i)
    ensures s == IndexedId(id, i)
  {
    var digits := s[|id| + 1..|s| - 1];
    NatToStringParse(digits);
    assert s == s[..|id|] + [s[|id|]] + digits + [s[|s| - 1]];
  }

  /** Different indices give different ids. */
  lemma IndexedIdInjective(id: string)
    ensures forall i: nat, j: nat :: IndexedId(id, i) == IndexedId(id, j) ==> i == j
  {
    forall i: nat, j: nat | IndexedId(id, i) == IndexedId(id, j)
      ensures i == j
    {
      ParseIndexedId(id, i);
      ParseIndexedId(id, j);
    }
  }

  /** Adds `v` under `key`, refusing a key that is already present. */
  function Insert<V>(m: map<string, V>, key: string, v: V): (r: Result<map<string, V>, RegistrationError>)
    ensures r.Success? <==> key !in m
    ensures r.Failure? ==> r.error == DuplicateId(key)
    ensures r.Success? ==> r.value.Keys == m.Keys + {key} && r.value[key] == v
    ensures r.Success? ==> forall k :: k in m ==> r.value[k] == m[k]
    ensures r.Success? ==> |r.value| == |m| + 1
  {
    if key in m then Failure(DuplicateId(key)) else Success(m[key := v])
  }

  /**
   A registration loop stopped part-way: the error thrown, and the state the
   loop had already reached, which keeps every test added before the failure.
   */
  datatype Refusal<S> = Refusal(cause: RegistrationError, reached: S)

  /** None of `id[lo]`, ..., `id[hi - 1]` is present in `m`. */
  predicate IndexedIdsFree<V>(m: map<string, V>, id: string, lo: nat, hi: nat) {
    forall k :: lo <= k < hi ==> IndexedId(id, k) !in m
  }

  /** `id[k]` is the first of `id[lo]`, `id[lo + 1]`, ... that is present in `m`. */
  predicate FirstTaken<V>(m: map<string, V>, id: string, lo: nat, k: nat) {
    lo <= k && IndexedId(id, k) in m && IndexedIdsFree(m, id, lo, k)
  }

  /**
   `r` is `m` with `id[k] := vals[k]` added for every `k` in `[lo, hi)`:
   those entries, every entry of `m` unchanged, and nothing else.
   */
  ghost predicate AddsIndexed<V>(m: map<string, V>, r: map<string, V>, id: string, vals: seq<V>, lo: nat, hi: nat)
    requires lo <= hi <= |vals|
  {
    && (forall k :: lo <= k < hi ==> IndexedId(id, k) in r && r[IndexedId(id, k)] == vals[k])
    && (forall key :: key in m ==> key in r && r[key] == m[key])
    && (forall key :: key in r ==> key in m || exists k :: lo <= k < hi && key == IndexedId(id, k))
    && |r| == |m| + (hi - lo)
  }

  /**
   The registration loop `for i in [start, |vals|): add(id[i], vals[i])`:
   stops at the first id already present, keeping what it added before.
   */
  function InsertIndexed<V>(m: map<string, V>, id: string, vals: seq<V>, start: nat)
    : (r: Result<map<string, V>, Refusal<map<string, V>>>)
    requires start <= |vals|
    ensures r.Success? <==> IndexedIdsFree(m, id, start, |vals|)
    ensures r.Success? ==> AddsIndexed(m, r.value, id, vals, start, |vals|)
    ensures r.Failure? ==>
      exists k: nat :: && start <= k < |vals|
                  && FirstTaken(m, id, start, k)
                  && r.error.cause == DuplicateId(IndexedId(id, k))
                  && AddsIndexed(m, r.error.reached, id, vals, start, k)
    decreases |vals| - start
  {
    if start == |vals| then Success(m)
    else
      match Insert(m, IndexedId(id, start), vals[start])
      case Failure(e) => Failure(Refusal(e, m))
      case Success(m') =>
        IndexedIdInjective(id);
        var r := InsertIndexed(m', id, vals, start + 1);
        InsertIndexedStep(m, m', id, vals, start, r);
        r
  }

  /** One turn of the loop: what the rest of the loop adds to `m'` it adds to `m` after `id[start]`. */
  lemma InsertIndexedStep<V>(m: map<string, V>, m': map<string, V>, id: string, vals: seq<V>, start: nat,
                             r: Result<map<string, V>, Refusal<map<string, V>>>)
    requires start < |vals|
    requires IndexedId(id, start) !in m && m' == m[IndexedId(id, start) := vals[start]]
    requires r.Success? <==> IndexedIdsFree(m', id, start + 1, |vals|)
    requires r.Success? ==> AddsIndexed(m', r.value, id, vals, start + 1, |vals|)
    requires r.Failure? ==>
      exists k: nat :: && start + 1 <= k < |vals|
                  && FirstTaken(m', id, start + 1, k)
                  && r.error.cause == DuplicateId(IndexedId(id, k))
                  && AddsIndexed(m', r.error.reached, id, vals, start + 1, k)
    ensures r.Success? <==> IndexedIdsFree(m, id, start, |vals|)
    ensures r.Success? ==> AddsIndexed(m, r.value, id, vals, start, |vals|)
    ensures r.Failure? ==>
      exists k: nat :: && start <= k < |vals|
                  && FirstTaken(m, id, start, k)
                  && r.error.cause == DuplicateId(IndexedId(id, k))
                  && AddsIndexed(m, r.error.reached, id, vals, start, k)
  {
    IndexedIdInjective(id);
    FreeStep(m, m', id, vals, start);
    if r.Success? {
      AddsIndexedStep(m, m', r.value, id, vals, start, |vals|);
    } else {
      var k: nat :| && start + 1 <= k < |vals|
                    && FirstTaken(m', id, start + 1, k)
                    && r.error.cause == DuplicateId(IndexedId(id, k))
                    && AddsIndexed(m', r.error.reached, id, vals, start + 1, k);
      AddsIndexedStep(m, m', r.error.reached, id, vals, start, k);
      FirstTakenStep(m, m', id, vals, start, k);
    }
  }

  lemma FreeStep<V>(m: map<string, V>, m': map<string, V>, id: string, vals: seq<V>, start: nat)
    requires start < |vals|
    requires IndexedId(id, start) !in m && m' == m[IndexedId(id, start) := vals[start]]
    requires forall i: nat, j: nat :: IndexedId(id, i) == IndexedId(id, j) ==> i == j
    ensures IndexedIdsFree(m, id, start, |vals|) <==> IndexedIdsFree(m', id, start + 1, |vals|)
  {
    if IndexedIdsFree(m', id, start + 1, |vals|) {
      forall k | start <= k < |vals|
        ensures IndexedId(id, k) !in m
      {
        if k > start {
          assert IndexedId(id, k) !in m';
        }
      }
    }
  }

  lemma FirstTakenStep<V>(m: map<string, V>, m': map<string, V>, id: string, vals: seq<V>, start: nat, k: nat)
    requires start < k < |vals|
    requires IndexedId(id, start) !in m && m' == m[IndexedId(id, start) := vals[start]]
    requires forall i: nat, j: nat :: IndexedId(id, i) == IndexedId(id, j) ==> i == j
    requires FirstTaken(m', id, start + 1, k)
    ensures FirstTaken(m, id, start, k)
  {
    assert IndexedId(id, k) != IndexedId(id, start);
    forall j | start < j < k
      ensures IndexedId(id, j) !in m
    {
      assert IndexedId(id, j) !in m';
    }
  }

  lemma AddsIndexedStep<V>(m: map<string, V>, m': map<string, V>, r: map<string, V>, id: string, vals: seq<V>,
                           start: nat, hi: nat)
    requires start < hi <= |vals|
    requires IndexedId(id, start) !in m && m' == m[IndexedId(id, start) := vals[start]]
    requires AddsIndexed(m', r, id, vals, start + 1, hi)
    ensures AddsIndexed(m, r, id, vals, start, hi)
  {
    forall key | key in r
      ensures key in m || exists k :: start <= k < hi && key == IndexedId(id, k)
    {
      if key !in m && key != IndexedId(id, start) {
        assert key !in m';
      }
    }
  }

  /** Only one index can be the first taken one. */
  lemma FirstTakenUnique<V>(m: map<string, V>, id: string, lo: nat, k: nat, k': nat)
    requires FirstTaken(m, id, lo, k) && FirstTaken(m, id, lo, k')
    ensures k == k'
  {
  }

  /** Two loops over the same ids and index range add the same keys, whatever the values. */
  lemma AddsIndexedSameKeys<V>(m: map<string, V>, r: map<string, V>, r': map<string, V>, id: string,
                               vals: seq<V>, vals': seq<V>, lo: nat, hi: nat)
    requires lo <= hi <= |vals| && hi <= |vals'|
    requires AddsIndexed(m, r, id, vals, lo, hi) && AddsIndexed(m, r', id, vals', lo, hi)
    ensures r.Keys == r'.Keys
  {
    forall key | key in r
      ensures key in r'
    {
      if key !in m {
        var k :| lo <= k < hi && key == IndexedId(id, k);
      }
    }
    forall key | key in r'
      ensures key in r
    {
      if key !in m {
        var k :| lo <= k < hi && key == IndexedId(id, k);
      }
    }
  }
}

=== FILE: scenario.dfy ===
/**
 A worked run: suite "math" with a passing test, a test failing a check, a
 test raising some other fault, and a disabled test.
 */
module Scenario {
  import opened Wrappers
  import opened Registry
  import opened TstSuite
  import opened TstReporter
  import TstCheck

  /** The "math" suite: "add", "div" and "crash", and the disabled "skip"; procedures are numbered. */
  function MathSuite(): (s: Suite<nat, nat>)
    ensures s.tests.Keys == {"add", "div", "crash", "skip"}
    ensures Pristine(s)
    ensures s.tests["skip"].flags == {Flag.Disabled}
  {
    Suite(map["add" := NewTest(Plain(0), {}), "div" := NewTest(Plain(1), {}),
              "crash" := NewTest(Plain(2), {}), "skip" := NewTest(Plain(3), {Flag.Disabled})],
          0, 0, 0, 0)
  }

  /**
   Registering `add("add", …)`, `add("div", …)`, `add("crash", …)` and
   `add_disabled("skip", …)` on a new suite builds exactly the "math" suite.
   */
  lemma MathSuiteRegistered()
    ensures var s1 := AddUnmarked(Empty<nat, nat>(), "add", 0);
      && s1.Success?
      && var s2 := AddUnmarked(s1.value, "div", 1);
      && s2.Success?
      && var s3 := AddUnmarked(s2.value, "crash", 2);
      && s3.Success?
      && AddDisabledUnmarked(s3.value, "skip", 3) == Success(MathSuite())
  {
    var s0 := Empty<nat, nat>();
    UnmarkedStep(s0, "add", 0);
    var s1 := s0.(tests := s0.tests["add" := NewTest(Plain(0), {})]);
    UnmarkedStep(s1, "div", 1);
    var s2 := s1.(tests := s1.tests["div" := NewTest(Plain(1), {})]);
    UnmarkedStep(s2, "crash", 2);
    var s3 := s2.(tests := s2.tests["crash" := NewTest(Plain(2), {})]);
    DisabledStep(s3, "skip", 3);
    var s4 := s3.(tests := s3.tests["skip" := NewTest(Plain(3), {Flag.Disabled})]);
    assert s4 == MathSuite();
  }

  /** `add(id, proc)` on a fresh id adds a new, not-run, unmarked test and nothing else. */
  lemma UnmarkedStep(s: Suite<nat, nat>, id: string, body: nat)
    requires id !in s.tests
    ensures AddUnmarked(s, id, body) == Success(s.(tests := s.tests[id := NewTest(Plain(body), {})]))
  {
    var t := AddUnmarked(s, id, body).value;
    assert t.tests == s.tests[id := NewTest(Plain(body), {})];
  }

  /** The same for `add_disabled(id, proc)`, whose test carries the `disabled` mark. */
  lemma DisabledStep(s: Suite<nat, nat>, id: string, body: nat)
    requires id !in s.tests
    ensures AddDisabledUnmarked(s, id, body) == Success(s.(tests := s.tests[id := NewTest(Plain(body), {Flag.Disabled})]))
  {
    var t := AddDisabledUnmarked(s, id, body).value;
    assert t.tests == s.tests[id := NewTest(Plain(body), {Flag.Disabled})];
  }

  /** The message `check_eq(4, 5)` raises. */
  lemma DivMessage()
    ensures TstCheck.CheckEq(4, 5).message == "check_eq(4, 5)"
  {
    assert Decimal.IntToString(4) == "4";
    assert Decimal.IntToString(5) == "5";
  }

  /** The outcome events of the run; "div" carries the message of `check_eq(4, 5)`. */
  function MathEvents(): seq<Event> {
    [ DisabledEvent(FullId("math", "skip")),
      PassEvent(FullId("math", "add")),
      FailureEvent(FullId("math", "div"), TstCheck.CheckEq(4, 5).message),
      ErrorEvent(FullId("math", "crash"), "null deref") ]
  }

  /**
   The run over the registered "math" suite (any suite holding exactly the four
   tests, none run yet) is accepted, counts one of each outcome, and is failed.
   */
  lemma MathRun(s: Suite<nat, nat>)
    requires s.tests.Keys == {"add", "div", "crash", "skip"}
    requires Pristine(s)
    ensures ApplyAll(Fresh(map["math" := s]), MathEvents()).Success?
    ensures var r := ApplyAll(Fresh(map["math" := s]), MathEvents()).value;
      && r.numPassed == 1 && r.numFailed == 1 && r.numErrors == 1 && r.numDisabled == 1
      && IsFailed(r)
  {
    MathEventsFresh(s);
    MathEventsCount();
    FreshEventsAccepted(Fresh(map["math" := s]), MathEvents());
  }

  /** After the run, "div" is failed and carries the message `check_eq(4, 5)` raised. */
  lemma MathRunRecordsDiv(s: Suite<nat, nat>)
    requires s.tests.Keys == {"add", "div", "crash", "skip"}
    requires Pristine(s)
    ensures ApplyAll(Fresh(map["math" := s]), MathEvents()).Success?
    ensures var suites := ApplyAll(Fresh(map["math" := s]), MathEvents()).value.suites;
      && Registered(suites, FullId("math", "div"))
      && ResultOf(suites, FullId("math", "div")) == Failed
      && MessageOf(suites, FullId("math", "div")) == "check_eq(4, 5)"
  {
    MathEventsFresh(s);
    ApplyAllRecords(Fresh(map["math" := s]), MathEvents());
    DivMessage();
    assert MathEvents()[2].id == FullId("math", "div");
  }

  lemma MathEventsFresh(s: Suite<nat, nat>)
    requires s.tests.Keys == {"add", "div", "crash", "skip"}
    requires Pristine(s)
    ensures FreshEvents(Fresh(map["math" := s]), MathEvents())
  {
    var suites := map["math" := s];
    var es := MathEvents();
    assert es[0].id.test == "skip" && es[1].id.test == "add";
    assert es[2].id.test == "div" && es[3].id.test == "crash";
    forall i | 0 <= i < |es|
      ensures Registered(suites, es[i].id) && ResultOf(suites, es[i].id) == NotRun
    {
    }
    forall i, j | 0 <= i < j < |es|
      ensures es[i].id != es[j].id
    {
    }
  }

  lemma MathEventsCount()
    ensures forall st :: st != NotRun ==> CountEvents(MathEvents(), st) == 1
  {
    var es := MathEvents();
    assert es == es[..2] + es[2..];
    assert es[..2][1..] == [es[1]];
    assert es[2..][1..] == [es[3]];
    forall st | st != NotRun
      ensures CountEvents(es, st) == 1
    {
      CountEventsAppend(es[..2], es[2..], st);
    }
  }
}

=== FILE: testy_suite.dfy ===
/**
 The legacy `testy::suite`: test procedures stored in a `std::map` keyed by id,
 with plain, fixture, parametrized and parametrized-fixture registration.
 */
module TestySuite {
  import opened Wrappers
  import opened Registry
  import opened LexOrder

  /** One procedure per id; `std::map` keeps the ids sorted. */
  datatype Suite<B, A> = Suite(procedures: map<string, Procedure<B, A>>)

  function Lift<B, A>(r: Result<map<string, Procedure<B, A>>, RegistrationError>)
    : Result<Suite<B, A>, RegistrationError>
  {
    match r
    case Success(m) => Success(Suite(m))
    case Failure(e) => Failure(e)
  }

  /** `add(id, proc)`: stores the procedure under `id`, refusing a taken id. */
  function Add<B, A>(s: Suite<B, A>, id: string, body: B): (r: Result<Suite<B, A>, RegistrationError>)
    ensures r.Success? <==> id !in s.procedures
    ensures r.Failure? ==> r.error == DuplicateId(id)
    ensures r.Success? ==>
      && r.value.procedures.Keys == s.procedures.Keys + {id}
      && r.value.procedures[id] == Plain(body)
      && |r.value.procedures| == |s.procedures| + 1
    ensures r.Success? ==> forall k :: k in s.procedures ==> r.value.procedures[k] == s.procedures[k]
  {
    Lift(Insert(s.procedures, id, Plain(body)))
  }

  /** `add(id, proc(fixture&))`: exactly one entry, a closure that builds a fixture first. */
  function AddWithFixture<B, A>(s: Suite<B, A>, id: string, body: B): (r: Result<Suite<B, A>, RegistrationError>)
    ensures r.Success? <==> id !in s.procedures
    ensures r.Failure? ==> r.error == DuplicateId(id)
    ensures r.Success? ==>
      && r.value.procedures.Keys == s.procedures.Keys + {id}
      && r.value.procedures[id] == WithFixture(body)
      && |r.value.procedures| == |s.procedures| + 1
    ensures r.Success? ==> forall k :: k in s.procedures ==> r.value.procedures[k] == s.procedures[k]
  {
    Lift(Insert(s.procedures, id, WithFixture(body)))
  }

  /**
   What registering `procs` under `id[0]`, `id[1]`, ... does to `s`: it succeeds
   iff no such id is taken, adding every procedure; otherwise it throws on the
   first taken `id[k]`, and the map keeps the entries `id[0]` ... `id[k - 1]` it added.
   */
  ghost predicate ParametrizedOutcome<B, A>(s: Suite<B, A>, id: string, procs: seq<Procedure<B, A>>,
                                            r: Result<Suite<B, A>, Refusal<Suite<B, A>>>)
  {
    && (r.Success? <==> IndexedIdsFree(s.procedures, id, 0, |procs|))
    && (r.Success? ==> AddsIndexed(s.procedures, r.value.procedures, id, procs, 0, |procs|))
    && (r.Failure? ==>
          exists k: nat :: && k < |procs|
                           && FirstTaken(s.procedures, id, 0, k)
                           && r.error.cause == DuplicateId(IndexedId(id, k))
                           && AddsIndexed(s.procedures, r.error.reached.procedures, id, procs, 0, k))
  }

  function LiftIndexed<B, A>(r: Result<map<string, Procedure<B, A>>, Refusal<map<string, Procedure<B, A>>>>)
    : Result<Suite<B, A>, Refusal<Suite<B, A>>>
  {
    match r
    case Success(m) => Success(Suite(m))
    case Failure(Refusal(e, m)) => Failure(Refusal(e, Suite(m)))
  }

  /** Procedure `i` of `add(id, params, proc(const param&))` calls `proc(params[i])`. */
  function ParamProcedures<B, A>(params: seq<A>, body: B): (ps: seq<Procedure<B, A>>)
    ensures |ps| == |params|
    ensures forall i :: 0 <= i < |params| ==> ps[i] == WithParam(body, params[i])
  {
    seq(|params|, i requires 0 <= i < |params| => WithParam(body, params[i]))
  }

  /** Procedure `i` of the fixture form builds a fixture, then calls `proc(params[i], fixture)`. */
  function ParamFixtureProcedures<B, A>(params: seq<A>, body: B): (ps: seq<Procedure<B, A>>)
    ensures |ps| == |params|
    ensures forall i :: 0 <= i < |params| ==> ps[i] == WithParamAndFixture(body, params[i])
  {
    seq(|params|, i requires 0 <= i < |params| => WithParamAndFixture(body, params[i]))
  }

  /** `add(id, params, proc(const param&))`: one test `id[i]` per parameter. */
  function AddParametrized<B, A>(s: Suite<B, A>, id: string, params: seq<A>, body: B)
    : (r: Result<Suite<B, A>, Refusal<Suite<B, A>>>)
    ensures ParametrizedOutcome(s, id, ParamProcedures(params, body), r)
  {
    LiftIndexed(InsertIndexed(s.procedures, id, ParamProcedures(params, body), 0))
  }

  /** `add(id, params, proc(const param&, fixture&))`: same count and naming as AddParametrized. */
  function AddParametrizedWithFixture<B, A>(s: Suite<B, A>, id: string, params: seq<A>, body: B)
    : (r: Result<Suite<B, A>, Refusal<Suite<B, A>>>)
    ensures ParametrizedOutcome(s, id, ParamFixtureProcedures(params, body), r)
  {
    LiftIndexed(InsertIndexed(s.procedures, id, ParamFixtureProcedures(params, body), 0))
  }

  /**
   Both parametrized forms accept the same suites and register the same ids;
   when they throw, they throw on the same id having added the same ids before it.
   */
  lemma ParametrizedFormsAgreeOnIds<B, A>(s: Suite<B, A>, id: string, params: seq<A>, body: B)
    ensures AddParametrized(s, id, params, body).Success? <==> AddParametrizedWithFixture(s, id, params, body).Success?
    ensures AddParametrized(s, id, params, body).Success? ==>
      AddParametrized(s, id, params, body).value.procedures.Keys
        == AddParametrizedWithFixture(s, id, params, body).value.procedures.Keys
    ensures AddParametrized(s, id, params, body).Failure? ==>
      && AddParametrized(s, id, params, body).error.cause
           == AddParametrizedWithFixture(s, id, params, body).error.cause
      && AddParametrized(s, id, params, body).error.reached.procedures.Keys
           == AddParametrizedWithFixture(s, id, params, body).error.reached.procedures.Keys
  {
    var p := AddParametrized(s, id, params, body);
    var q := AddParametrizedWithFixture(s, id, params, body);
    var ps := ParamProcedures(params, body);
    var qs := ParamFixtureProcedures(params, body);
    if p.Success? {
      AddsIndexedSameKeys(s.procedures, p.value.procedures, q.value.procedures, id, ps, qs, 0, |params|);
    } else {
      var k: nat :| && k < |ps| && FirstTaken(s.procedures, id, 0, k)
                    && p.error.cause == DuplicateId(IndexedId(id, k))
                    && AddsIndexed(s.procedures, p.error.reached.procedures, id, ps, 0, k);
      var k': nat :| && k' < |qs| && FirstTaken(s.procedures, id, 0, k')
                     && q.error.cause == DuplicateId(IndexedId(id, k'))
                     && AddsIndexed(s.procedures, q.error.reached.procedures, id, qs, 0, k');
      FirstTakenUnique(s.procedures, id, 0, k, k');
      AddsIndexedSameKeys(s.procedures, p.error.reached.procedures, q.error.reached.procedures, id, ps, qs, 0, k);
    }
  }

  /** The least of a non-empty set of ids. */
  method Least(ids: set<string>) returns (m: string)
    requires ids != {}
    ensures m in ids
    ensures forall k :: k in ids && k != m ==> Less(m, k)
  {
    m :| m in ids;
    var rest := ids - {m};
    while rest != {}
      invariant m in ids
      invariant rest <= ids
      invariant m !in rest
      invariant forall k :: k in ids - rest && k != m ==> Less(m, k)
      decreases |rest|
    {
      var x :| x in rest;
      Total(m, x);
      if Less(x, m) {
        forall k | k in ids - rest && k != m
          ensures Less(x, k)
        {
          Transitive(x, m, k);
        }
        m := x;
      }
      rest := rest - {x};
      Irreflexive(m);
    }
  }

  /** The ids in the order iterating the `std::map` visits them. */
  method OrderedIds<B, A>(s: Suite<B, A>) returns (ids: seq<string>)
    ensures StrictlyAscending(ids)
    ensures forall k :: k in ids <==> k in s.procedures
    ensures |ids| == |s.procedures|
  {
    ids := [];
    var rest := s.procedures.Keys;
    while rest != {}
      invariant rest <= s.procedures.Keys
      invariant StrictlyAscending(ids)
      invariant forall k :: k in ids <==> k in s.procedures && k !in rest
      invariant forall i, k :: 0 <= i < |ids| && k in rest ==> Less(ids[i], k)
      invariant |ids| + |rest| == |s.procedures|
      decreases |rest|
    {
      var m := Least(rest);
      forall i, k | 0 <= i < |ids| && k in rest - {m}
        ensures Less(ids[i], k)
      {
      }
      ids := ids + [m];
      rest := rest - {m};
    }
  }
}

=== FILE: tst_check.dfy ===
/**
 The assertion helpers of `tst`: `check`, the `check_result` object that the
 print-less forms return, and the comparison checks `check_eq`, `check_ne`,
 `check_lt`, `check_gt`, `check_le`, `check_ge`. A raised check failure is an
 `Outcome` value rather than a C++ exception; compared values are `int`s.
 */
module TstCheck {
  import opened Wrappers
  import opened Decimal

  /** What a check does to the running test: nothing, or raise a check failure with a message. */
  datatype Outcome = Pass | Raise(message: string)

  /**
   `check(c, print)`: does nothing when `c` holds, otherwise raises a failure
   whose message is the text `print` writes (`printed`).
   */
  function Check(c: bool, printed: string): (o: Outcome)
    ensures o.Pass? <==> c
    ensures o.Raise? ==> o.message == printed
  {
    if c then Pass else Raise(printed)
  }

  /** The template `check(p, print)`: converts `p` to `bool` first. */
  function CheckConvertible<T>(p: T, toBool: T -> bool, printed: string): (o: Outcome)
    ensures o.Pass? <==> toBool(p)
    ensures o.Raise? ==> o.message == printed
  {
    Check(toBool(p), printed)
  }

  /**
   A `check_result`: whether the check failed and the text inserted so far.
   The source location it also carries plays no part here.
   */
  datatype CheckResult = CheckResult(failed: bool, message: string)

  /** A default-constructed `check_result`: not failed, nothing inserted. */
  const Default: CheckResult := CheckResult(false, "")

  /** `check(c)`: a result that is failed exactly when `c` is false. */
  function CheckResultOf(c: bool): (r: CheckResult)
    ensures r.failed <==> !c
    ensures r.message == ""
    ensures c ==> r == Default
  {
    if c then Default else CheckResult(true, "")
  }

  /** The template `check(p)`: converts `p` to `bool` first. */
  function CheckResultOfConvertible<T>(p: T, toBool: T -> bool): (r: CheckResult)
    ensures r.failed <==> !toBool(p)
    ensures r.message == ""
  {
    CheckResultOf(toBool(p))
  }

  /** `r << text`: appends only to a failed result. */
  function Insert(r: CheckResult, text: string): (r': CheckResult)
    ensures r'.failed == r.failed
    ensures r.failed ==> r'.message == r.message + text
    ensures !r.failed ==> r' == r
  {
    if r.failed then r.(message := r.message + text) else r
  }

  /** A chain `r << t0 << t1 << ...`. */
  function InsertAll(r: CheckResult, texts: seq<string>): CheckResult
    decreases |texts|
  {
    if |texts| == 0 then r else InsertAll(Insert(r, texts[0]), texts[1..])
  }

  function Concat(texts: seq<string>): string
    decreases |texts|
  {
    if |texts| == 0 then "" else texts[0] + Concat(texts[1..])
  }

  /** Concatenation distributes over joining the lists of pieces. */
  lemma {:induction false} ConcatAppend(xs: seq<string>, ys: seq<string>)
    ensures Concat(xs + ys) == Concat(xs) + Concat(ys)
    decreases |xs|
  {
    if |xs| == 0 {
      assert xs + ys == ys;
    } else {
      assert (xs + ys)[1..] == xs[1..] + ys;
      ConcatAppend(xs[1..], ys);
    }
  }

  lemma ConcatFive(t0: string, t1: string, t2: string, t3: string, t4: string)
    ensures Concat([t0, t1, t2, t3, t4]) == t0 + t1 + t2 + t3 + t4
  {
    assert [t0, t1, t2, t3, t4] == [t0, t1] + [t2, t3, t4];
    ConcatAppend([t0, t1], [t2, t3, t4]);
    assert [t0, t1][1..] == [t1];
    assert Concat([t0, t1]) == t0 + t1;
    assert [t2, t3, t4] == [t2] + [t3, t4];
    ConcatAppend([t2], [t3, t4]);
    assert [t2][1..] == [] && [t3, t4][1..] == [t4] && [t4][1..] == [];
  }

  /** A chain of insertions is one insertion of the concatenated text. */
  lemma {:induction false} InsertAllIsInsertConcat(r: CheckResult, texts: seq<string>)
    ensures InsertAll(r, texts) == Insert(r, Concat(texts))
    decreases |texts|
  {
    if |texts| > 0 {
      InsertAllIsInsertConcat(Insert(r, texts[0]), texts[1..]);
      if r.failed {
        assert r.message + texts[0] + Concat(texts[1..]) == r.message + (texts[0] + Concat(texts[1..]));
      }
    }
  }

  /** A passing check's message stays empty whatever is inserted. */
  lemma PassingMessageStaysEmpty(texts: seq<string>)
    ensures InsertAll(CheckResultOf(true), texts) == Default
  {
    InsertAllIsInsertConcat(CheckResultOf(true), texts);
  }

  /**
   The move constructor: the new object takes over the state and the moved-from
   object is left not failed, so it will not raise.
   */
  function Move(r: CheckResult): (p: (CheckResult, CheckResult))
    ensures p.0 == r
    ensures !p.1.failed
  {
    (r, Default)
  }

  /** The destructor: a failed result raises its accumulated message. */
  function Destroy(r: CheckResult): (o: Outcome)
    ensures o.Raise? <==> r.failed
    ensures o.Raise? ==> o.message == r.message
  {
    if r.failed then Raise(r.message) else Pass
  }

  function Raised(os: seq<Outcome>): nat
    decreases |os|
  {
    if |os| == 0 then 0 else (if os[0].Raise? then 1 else 0) + Raised(os[1..])
  }

  /** Destroying both halves of a move raises the original failure exactly once, and no other. */
  lemma MoveRaisesOnce(r: CheckResult)
    ensures Raised([Destroy(Move(r).0), Destroy(Move(r).1)]) == if r.failed then 1 else 0
    ensures Destroy(Move(r).0) == Destroy(r)
  {
    var os := [Destroy(Move(r).0), Destroy(Move(r).1)];
    assert os[1..] == [os[1]];
    assert os[1..][1..] == [];
    assert Raised(os[1..]) == 0;
  }

  /** The six comparisons. */
  datatype Relation = Eq | Ne | Lt | Gt | Le | Ge

  predicate Holds(rel: Relation, a: int, b: int) {
    match rel
    case Eq => a == b
    case Ne => a != b
    case Lt => a < b
    case Gt => a > b
    case Le => a <= b
    case Ge => a >= b
  }

  /** The name each comparison prints in its failure message. */
  function Name(rel: Relation): string {
    match rel
    case Eq => "check_eq"
    case Ne => "check_ne"
    case Lt => "check_lt"
    case Gt => "check_gt"
    case Le => "check_le"
    case Ge => "check_ge"
  }

  /** The comparison that fails exactly when `rel` holds. */
  function Negation(rel: Relation): (n: Relation)
    ensures forall a, b :: Holds(n, a, b) <==> !Holds(rel, a, b)
  {
    match rel
    case Eq => Ne
    case Ne => Eq
    case Lt => Ge
    case Ge => Lt
    case Gt => Le
    case Le => Gt
  }

  /** `check_xx(a, b)`: the fixed prefix of every comparison failure message. */
  function Subject(rel: Relation, a: int, b: int): string {
    Name(rel) + "(" + IntToString(a) + ", " + IntToString(b) + ")"
  }

  /** What an optional `print` function writes; an empty `std::function` writes nothing. */
  function Printed(printer: Option<string>): string {
    match printer
    case Some(text) => text
    case None => ""
  }

  /**
   The print forms `check_xx(a, b, print)`: raise when the relation does not
   hold, with the subject followed by what `print` writes.
   */
  function CheckCompareWith(rel: Relation, a: int, b: int, printer: Option<string>): (o: Outcome)
    ensures o.Pass? <==> Holds(rel, a, b)
    ensures o.Raise? ==> o.message == Subject(rel, a, b) + Printed(printer)
  {
    Check(Holds(rel, a, b), Subject(rel, a, b) + Printed(printer))
  }

  /**
   The print-less forms `check_xx(a, b)`: `ret = check(a OP b); ret << name "(" << a
   << ", " << b << ")"; return ret;` where returning moves `ret` out.
   */
  function CheckCompare(rel: Relation, a: int, b: int): (r: CheckResult)
    ensures r.failed <==> !Holds(rel, a, b)
    ensures r.message == if r.failed then Subject(rel, a, b) else ""
  {
    var ret := InsertAll(CheckResultOf(Holds(rel, a, b)), [Name(rel) + "(", IntToString(a), ", ", IntToString(b), ")"]);
    InsertAllIsInsertConcat(CheckResultOf(Holds(rel, a, b)), [Name(rel) + "(", IntToString(a), ", ", IntToString(b), ")"]);
    ConcatFive(Name(rel) + "(", IntToString(a), ", ", IntToString(b), ")");
    Move(ret).0
  }

  /**
   The two forms agree: without a print function the print form raises what
   the print-less result raises, and with one it raises what the print-less
   result raises after `<<` of the printed text.
   */
  lemma PrintFormMatchesResultForm(rel: Relation, a: int, b: int, printer: Option<string>)
    ensures CheckCompareWith(rel, a, b, printer) == Destroy(Insert(CheckCompare(rel, a, b), Printed(printer)))
  {
  }

  /** Of a comparison and its negation, exactly one fails. */
  lemma NegatedCheckFailsExclusively(rel: Relation, a: int, b: int)
    ensures CheckCompare(rel, a, b).failed != CheckCompare(Negation(rel), a, b).failed
    ensures CheckCompareWith(rel, a, b, None).Raise? != CheckCompareWith(Negation(rel), a, b, None).Raise?
  {
  }

  /** `check_eq(a, b)`: fails exactly when not `a == b`. */
  function CheckEq(a: int, b: int): (r: CheckResult)
    ensures r.failed <==> a != b
    ensures r.message == if a != b then "check_eq(" + IntToString(a) + ", " + IntToString(b) + ")" else ""
  {
    assert Name(Eq) + "(" == "check_eq(";
    CheckCompare(Eq, a, b)
  }

  /** `check_eq(a, b, print)`: raises exactly when not `a == b`. */
  function CheckEqWith(a: int, b: int, printer: Option<string>): (o: Outcome)
    ensures o.Pass? <==> a == b
    ensures o.Raise? ==> o.message == "check_eq(" + IntToString(a) + ", " + IntToString(b) + ")" + Printed(printer)
  {
    assert Name(Eq) + "(" == "check_eq(";
    CheckCompareWith(Eq, a, b, printer)
  }

  /** `check_ne(a, b)`: fails exactly when not `a != b`. */
  function CheckNe(a: int, b: int): (r: CheckResult)
    ensures r.failed <==> a == b
    ensures r.message == if a == b then "check_ne(" + IntToString(a) + ", " + IntToString(b) + ")" else ""
  {
    assert Name(Ne) + "(" == "check_ne(";
    CheckCompare(Ne, a, b)
  }

  /** `check_ne(a, b, print)`: raises exactly when not `a != b`. */
  function CheckNeWith(a: int, b: int, printer: Option<string>): (o: Outcome)
    ensures o.Pass? <==> a != b
    ensures o.Raise? ==> o.message == "check_ne(" + IntToString(a) + ", " + IntToString(b) + ")" + Printed(printer)
  {
    assert Name(Ne) + "(" == "check_ne(";
    CheckCompareWith(Ne, a, b, printer)
  }

  /** `check_lt(a, b)`: fails exactly when not `a < b`. */
  function CheckLt(a: int, b: int): (r: CheckResult)
    ensures r.failed <==> a >= b
    ensures r.message == if a >= b then "check_lt(" + IntToString(a) + ", " + IntToString(b) + ")" else ""
  {
    assert Name(Lt) + "(" == "check_lt(";
    CheckCompare(Lt, a, b)
  }

  /** `check_lt(a, b, print)`: raises exactly when not `a < b`. */
  function CheckLtWith(a: int, b: int, printer: Option<string>): (o: Outcome)
    ensures o.Pass? <==> a < b
    ensures o.Raise? ==> o.message == "check_lt(" + IntToString(a) + ", " + IntToString(b) + ")" + Printed(printer)
  {
    assert Name(Lt) + "(" == "check_lt(";
    CheckCompareWith(Lt, a, b, printer)
  }

  /** `check_gt(a, b)`: fails exactly when not `a > b`. */
  function CheckGt(a: int, b: int): (r: CheckResult)
    ensures r.failed <==> a <= b
    ensures r.message == if a <= b then "check_gt(" + IntToString(a) + ", " + IntToString(b) + ")" else ""
  {
    assert Name(Gt) + "(" == "check_gt(";
    CheckCompare(Gt, a, b)
  }

  /** `check_gt(a, b, print)`: raises exactly when not `a > b`. */
  function CheckGtWith(a: int, b: int, printer: Option<string>): (o: Outcome)
    ensures o.Pass? <==> a > b
    ensures o.Raise? ==> o.message == "check_gt(" + IntToString(a) + ", " + IntToString(b) + ")" + Printed(printer)
  {
    assert Name(Gt) + "(" == "check_gt(";
    CheckCompareWith(Gt, a, b, printer)
  }

  /** `check_le(a, b)`: fails exactly when not `a <= b`. */
  function CheckLe(a: int, b: int): (r: CheckResult)
    ensures r.failed <==> a > b
    ensures r.message == if a > b then "check_le(" + IntToString(a) + ", " + IntToString(b) + ")" else ""
  {
    assert Name(Le) + "(" == "check_le(";
    CheckCompare(Le, a, b)
  }

  /** `check_le(a, b, print)`: raises exactly when not `a <= b`. */
  function CheckLeWith(a: int, b: int, printer: Option<string>): (o: Outcome)
    ensures o.Pass? <==> a <= b
    ensures o.Raise? ==> o.message == "check_le(" + IntToString(a) + ", " + IntToString(b) + ")" + Printed(printer)
  {
    assert Name(Le) + "(" == "check_le(";
    CheckCompareWith(Le, a, b, printer)
  }

  /** `check_ge(a, b)`: fails exactly when not `a >= b`. */
  function CheckGe(a: int, b: int): (r: CheckResult)
    ensures r.failed <==> a < b
    ensures r.message == if a < b then "check_ge(" + IntToString(a) + ", " + IntToString(b) + ")" else ""
  {
    assert Name(Ge) + "(" == "check_ge(";
    CheckCompare(Ge, a, b)
  }

  /** `check_ge(a, b, print)`: raises exactly when not `a >= b`. */
  function CheckGeWith(a: int, b: int, printer: Option<string>): (o: Outcome)
    ensures o.Pass? <==> a >= b
    ensures o.Raise? ==> o.message == "check_ge(" + IntToString(a) + ", " + IntToString(b) + ")" + Printed(printer)
  {
    assert Name(Ge) + "(" == "check_ge(";
    CheckCompareWith(Ge, a, b, printer)
  }

  /** On integers exactly one of `check_lt(a, b)` and `check_ge(a, b)` fails. */
  lemma LtGeExclusive(a: int, b: int)
    ensures CheckLt(a, b).failed != CheckGe(a, b).failed
    ensures CheckLtWith(a, b, None).Raise? != CheckGeWith(a, b, None).Raise?
  {
  }

  /** Exactly one of `check_eq(a, b)` and `check_ne(a, b)` fails. */
  lemma EqNeExclusive(a: int, b: int)
    ensures CheckEq(a, b).failed != CheckNe(a, b).failed
    ensures CheckEqWith(a, b, None).Raise? != CheckNeWith(a, b, None).Raise?
  {
  }
}

=== FILE: tst_reporter.dfy ===
/**
 The `tst::reporter`: receives one outcome event per test, records it in the
 test's result slot and bumps the matching per-suite and global counters.
 The C++ reporter holds a mutex for the whole of `report`, so each report is
 one atomic step; a run is modelled as a sequence of such steps.
 */
module TstReporter {
  import opened Wrappers
  import opened TstSuite

  /** A test's global key: suite name and test id. */
  datatype FullId = FullId(suite: string, test: string)

  /** The reporter's view of the catalog and its global counters. */
  datatype Reporter<B, A> = Reporter(
    suites: map<string, Suite<B, A>>,
    numFailed: nat,
    numPassed: nat,
    numDisabled: nat,
    numErrors: nat)

  /** A report that names no registered test, or a test that already has a result. */
  datatype Misreport = UnknownTest(id: FullId) | AlreadyReported(id: FullId)

  /** The four public report calls. */
  datatype Event =
    | PassEvent(id: FullId)
    | FailureEvent(id: FullId, message: string)
    | ErrorEvent(id: FullId, message: string)
    | DisabledEvent(id: FullId)

  /** A reporter over `suites`, every counter at zero. */
  function Fresh<B, A>(suites: map<string, Suite<B, A>>): (r: Reporter<B, A>)
    ensures r.suites == suites
    ensures r.numFailed == 0 && r.numPassed == 0 && r.numDisabled == 0 && r.numErrors == 0
    ensures !IsFailed(r)
  {
    Reporter(suites, 0, 0, 0, 0)
  }

  /** `is_failed()`: some test failed or errored. */
  predicate IsFailed<B, A>(r: Reporter<B, A>) {
    r.numFailed != 0 || r.numErrors != 0
  }

  predicate Registered<B, A>(suites: map<string, Suite<B, A>>, id: FullId) {
    id.suite in suites && id.test in suites[id.suite].tests
  }

  function ResultOf<B, A>(suites: map<string, Suite<B, A>>, id: FullId): Status
    requires Registered(suites, id)
  {
    suites[id.suite].tests[id.test].result
  }

  function MessageOf<B, A>(suites: map<string, Suite<B, A>>, id: FullId): string
    requires Registered(suites, id)
  {
    suites[id.suite].tests[id.test].message
  }

  /** Every test of every suite whose result is `st`. */
  ghost function AllWithStatus<B, A>(suites: map<string, Suite<B, A>>, st: Status): set<FullId> {
    set sn, t | sn in suites && t in suites[sn].tests && suites[sn].tests[t].result == st :: FullId(sn, t)
  }

  /** Every registered test. */
  ghost function AllTests<B, A>(suites: map<string, Suite<B, A>>): set<FullId> {
    set sn, t | sn in suites && t in suites[sn].tests :: FullId(sn, t)
  }

  lemma AllWithStatusMember<B, A>(suites: map<string, Suite<B, A>>, st: Status, x: FullId)
    ensures x in AllWithStatus(suites, st) <==> Registered(suites, x) && ResultOf(suites, x) == st
  {
    if Registered(suites, x) && ResultOf(suites, x) == st {
      assert x == FullId(x.suite, x.test);
    }
  }

  /** Every per-suite counter and every global counter agrees with the stored results. */
  ghost predicate Valid<B, A>(r: Reporter<B, A>) {
    && (forall sn :: sn in r.suites ==> Consistent(r.suites[sn]))
    && CounterMatches(r, Passed)
    && CounterMatches(r, Failed)
    && CounterMatches(r, Errored)
    && CounterMatches(r, Status.Disabled)
  }

  /** The global counter for `st` equals the number of tests with result `st`. */
  ghost predicate CounterMatches<B, A>(r: Reporter<B, A>, st: Status) {
    CounterOf(r, st) == |AllWithStatus(r.suites, st)|
  }

  /** A suite as registration leaves it: nothing run, nothing counted. */
  predicate Pristine<B, A>(s: Suite<B, A>) {
    && s.numDisabled == 0 && s.numFailed == 0 && s.numPassed == 0 && s.numErrors == 0
    && forall t :: t in s.tests ==> s.tests[t].result == NotRun
  }

  /** A fresh reporter over a freshly registered catalog is valid. */
  lemma FreshIsValid<B, A>(suites: map<string, Suite<B, A>>)
    requires forall sn :: sn in suites ==> Pristine(suites[sn])
    ensures Valid(Fresh(suites))
  {
    forall st | st != NotRun
      ensures AllWithStatus(suites, st) == {}
    {
      forall x | x in AllWithStatus(suites, st)
        ensures false
      {
        AllWithStatusMember(suites, st, x);
      }
    }
    forall sn | sn in suites
      ensures Consistent(suites[sn])
    {
      var s := suites[sn];
      assert WithStatus(s.tests, Passed) == {};
      assert WithStatus(s.tests, Failed) == {};
      assert WithStatus(s.tests, Errored) == {};
      assert WithStatus(s.tests, Status.Disabled) == {};
    }
  }

  /** Adds one to the per-suite counter matching `st`. */
  function BumpSuite<B, A>(s: Suite<B, A>, st: Status): Suite<B, A> {
    match st
    case Passed => s.(numPassed := s.numPassed + 1)
    case Failed => s.(numFailed := s.numFailed + 1)
    case Errored => s.(numErrors := s.numErrors + 1)
    case Disabled => s.(numDisabled := s.numDisabled + 1)
    case NotRun => s
  }

  /** Adds one to the global counter matching `st`. */
  function BumpGlobal<B, A>(r: Reporter<B, A>, st: Status): Reporter<B, A> {
    match st
    case Passed => r.(numPassed := r.numPassed + 1)
    case Failed => r.(numFailed := r.numFailed + 1)
    case Errored => r.(numErrors := r.numErrors + 1)
    case Disabled => r.(numDisabled := r.numDisabled + 1)
    case NotRun => r
  }

  /** The global counter that counts status `st`. */
  function CounterOf<B, A>(r: Reporter<B, A>, st: Status): nat {
    match st
    case Passed => r.numPassed
    case Failed => r.numFailed
    case Errored => r.numErrors
    case Disabled => r.numDisabled
    case NotRun => 0
  }

  /** The per-suite counter that counts status `st`. */
  function SuiteCounterOf<B, A>(s: Suite<B, A>, st: Status): nat {
    match st
    case Passed => s.numPassed
    case Failed => s.numFailed
    case Errored => s.numErrors
    case Disabled => s.numDisabled
    case NotRun => 0
  }

  /**
   `report(id, status, message)`: one atomic step that writes the test's
   result and message and bumps the counters for `st`. Refuses an id that is
   not registered and a test that already has a result.
   */
  function Report<B, A>(r: Reporter<B, A>, id: FullId, st: Status, message: string)
    : (res: Result<Reporter<B, A>, Misreport>)
    requires st != NotRun
    ensures res.Success? <==> Registered(r.suites, id) && ResultOf(r.suites, id) == NotRun
    ensures !Registered(r.suites, id) ==> res == Failure(UnknownTest(id))
    ensures Registered(r.suites, id) && ResultOf(r.suites, id) != NotRun ==> res == Failure(AlreadyReported(id))
    ensures res.Success? ==>
      && res.value.suites.Keys == r.suites.Keys
      && Registered(res.value.suites, id)
      && ResultOf(res.value.suites, id) == st
      && MessageOf(res.value.suites, id) == message
    ensures res.Success? ==>
      && Registered(r.suites, id)
      && Registered(res.value.suites, id)
      && res.value.suites[id.suite].tests[id.test] == r.suites[id.suite].tests[id.test].(result := st, message := message)
    ensures res.Success? ==>
      forall x :: Registered(r.suites, x) && x != id ==>
        && Registered(res.value.suites, x)
        && res.value.suites[x.suite].tests[x.test] == r.suites[x.suite].tests[x.test]
    ensures res.Success? ==>
      && res.value.suites[id.suite].tests.Keys == r.suites[id.suite].tests.Keys
      && forall sn :: sn in r.suites && sn != id.suite ==> res.value.suites[sn] == r.suites[sn]
    ensures res.Success? ==>
      forall st' :: st' != NotRun ==>
        SuiteCounterOf(res.value.suites[id.suite], st') == SuiteCounterOf(r.suites[id.suite], st') + (if st' == st then 1 else 0)
    ensures res.Success? ==>
      forall st' :: st' != NotRun ==> CounterOf(res.value, st') == CounterOf(r, st') + (if st' == st then 1 else 0)
  {
    if !Registered(r.suites, id) then Failure(UnknownTest(id))
    else if ResultOf(r.suites, id) != NotRun then Failure(AlreadyReported(id))
    else Success(Record(r, id, st, message))
  }

  /** Writes `st` and `message` into test `t`'s slot and bumps the suite's counter. */
  function RecordInSuite<B, A>(s: Suite<B, A>, t: string, st: Status, message: string): Suite<B, A>
    requires t in s.tests
  {
    BumpSuite(s.(tests := s.tests[t := s.tests[t].(result := st, message := message)]), st)
  }

  /** The state change of one accepted report. */
  function Record<B, A>(r: Reporter<B, A>, id: FullId, st: Status, message: string): Reporter<B, A>
    requires Registered(r.suites, id)
  {
    BumpGlobal(r.(suites := r.suites[id.suite := RecordInSuite(r.suites[id.suite], id.test, st, message)]), st)
  }

  /** `report_pass(id)`: status passed, no message. */
  function ReportPass<B, A>(r: Reporter<B, A>, id: FullId): (res: Result<Reporter<B, A>, Misreport>)
    ensures res.Success? ==> Registered(res.value.suites, id) && ResultOf(res.value.suites, id) == Passed && MessageOf(res.value.suites, id) == ""
    ensures res.Success? ==> res.value.numPassed == r.numPassed + 1 && (IsFailed(res.value) <==> IsFailed(r))
  {
    Report(r, id, Passed, "")
  }

  /** `report_failure(id, message)`: status failed, carrying the message. */
  function ReportFailure<B, A>(r: Reporter<B, A>, id: FullId, message: string)
    : (res: Result<Reporter<B, A>, Misreport>)
    ensures res.Success? ==> Registered(res.value.suites, id) && ResultOf(res.value.suites, id) == Failed && MessageOf(res.value.suites, id) == message
    ensures res.Success? ==> res.value.numFailed == r.numFailed + 1 && IsFailed(res.value)
  {
    Report(r, id, Failed, message)
  }

  /** `report_error(id, message)`: status errored, carrying the message. */
  function ReportError<B, A>(r: Reporter<B, A>, id: FullId, message: string)
    : (res: Result<Reporter<B, A>, Misreport>)
    ensures res.Success? ==> Registered(res.value.suites, id) && ResultOf(res.value.suites, id) == Errored && MessageOf(res.value.suites, id) == message
    ensures res.Success? ==> res.value.numErrors == r.numErrors + 1 && IsFailed(res.value)
  {
    Report(r, id, Errored, message)
  }

  /** `report_disabled_test(id)`: status disabled, no message. */
  function ReportDisabledTest<B, A>(r: Reporter<B, A>, id: FullId): (res: Result<Reporter<B, A>, Misreport>)
    ensures res.Success? ==> Registered(res.value.suites, id) && ResultOf(res.value.suites, id) == Status.Disabled && MessageOf(res.value.suites, id) == ""
    ensures res.Success? ==> res.value.numDisabled == r.numDisabled + 1 && (IsFailed(res.value) <==> IsFailed(r))
  {
    Report(r, id, Status.Disabled, "")
  }

  /** Recording a not-run test moves it into the result set of `st` and touches no other set. */
  lemma WithStatusAfterRecord<B, A>(s: Suite<B, A>, t: string, st: Status, message: string, st': Status)
    requires t in s.tests && s.tests[t].result == NotRun && st != NotRun && st' != NotRun
    ensures t !in WithStatus(s.tests, st')
    ensures WithStatus(RecordInSuite(s, t, st, message).tests, st')
         == if st' == st then WithStatus(s.tests, st') + {t} else WithStatus(s.tests, st')
  {
  }

  lemma RecordInSuiteKeepsConsistent<B, A>(s: Suite<B, A>, t: string, st: Status, message: string)
    requires Consistent(s)
    requires t in s.tests && s.tests[t].result == NotRun && st != NotRun
    ensures Consistent(RecordInSuite(s, t, st, message))
  {
    WithStatusAfterRecord(s, t, st, message, Passed);
    WithStatusAfterRecord(s, t, st, message, Failed);
    WithStatusAfterRecord(s, t, st, message, Errored);
    WithStatusAfterRecord(s, t, st, message, Status.Disabled);
  }

  lemma AllWithStatusAfterRecord<B, A>(r: Reporter<B, A>, id: FullId, st: Status, message: string, st': Status)
    requires Registered(r.suites, id) && ResultOf(r.suites, id) == NotRun && st != NotRun && st' != NotRun
    ensures id !in AllWithStatus(r.suites, st')
    ensures AllWithStatus(Record(r, id, st, message).suites, st')
         == if st' == st then AllWithStatus(r.suites, st') + {id} else AllWithStatus(r.suites, st')
  {
    var after := Record(r, id, st, message).suites;
    AllWithStatusMember(r.suites, st', id);
    forall x
      ensures x in AllWithStatus(after, st')
          <==> x in (if st' == st then AllWithStatus(r.suites, st') + {id} else AllWithStatus(r.suites, st'))
    {
      AllWithStatusMember(after, st', x);
      AllWithStatusMember(r.suites, st', x);
    }
  }

  lemma RecordKeepsSuitesConsistent<B, A>(r: Reporter<B, A>, id: FullId, st: Status, message: string)
    requires forall sn :: sn in r.suites ==> Consistent(r.suites[sn])
    requires Registered(r.suites, id) && ResultOf(r.suites, id) == NotRun && st != NotRun
    ensures forall sn :: sn in Record(r, id, st, message).suites ==> Consistent(Record(r, id, st, message).suites[sn])
  {
    var after := Record(r, id, st, message).suites;
    RecordInSuiteKeepsConsistent(r.suites[id.suite], id.test, st, message);
    forall sn | sn in after
      ensures Consistent(after[sn])
    {
      if sn != id.suite {
        assert after[sn] == r.suites[sn];
      }
    }
  }

  lemma CounterMatchesAfterRecord<B, A>(r: Reporter<B, A>, id: FullId, st: Status, message: string, st': Status)
    requires CounterMatches(r, st')
    requires Registered(r.suites, id) && ResultOf(r.suites, id) == NotRun && st != NotRun && st' != NotRun
    ensures CounterMatches(Record(r, id, st, message), st')
  {
    AllWithStatusAfterRecord(r, id, st, message, st');
    assert CounterOf(Record(r, id, st, message), st') == CounterOf(r, st') + if st' == st then 1 else 0;
  }

  lemma RecordKeepsValid<B, A>(r: Reporter<B, A>, id: FullId, st: Status, message: string)
    requires Valid(r)
    requires Registered(r.suites, id) && ResultOf(r.suites, id) == NotRun && st != NotRun
    ensures Valid(Record(r, id, st, message))
  {
    RecordKeepsSuitesConsistent(r, id, st, message);
    CounterMatchesAfterRecord(r, id, st, message, Passed);
    CounterMatchesAfterRecord(r, id, st, message, Failed);
    CounterMatchesAfterRecord(r, id, st, message, Errored);
    CounterMatchesAfterRecord(r, id, st, message, Status.Disabled);
  }

  /** One report keeps every counter in agreement with the stored results. */
  lemma ReportKeepsValid<B, A>(r: Reporter<B, A>, id: FullId, st: Status, message: string)
    requires Valid(r) && st != NotRun
    requires Report(r, id, st, message).Success?
    ensures Valid(Report(r, id, st, message).value)
  {
    RecordKeepsValid(r, id, st, message);
  }

  /** The status an event records. */
  function EventStatus(e: Event): (st: Status)
    ensures st != NotRun
  {
    match e
    case PassEvent(_) => Passed
    case FailureEvent(_, _) => Failed
    case ErrorEvent(_, _) => Errored
    case DisabledEvent(_) => Status.Disabled
  }

  /** The message an event records: empty for passes and disabled tests. */
  function EventMessage(e: Event): string {
    match e
    case PassEvent(_) => ""
    case FailureEvent(_, m) => m
    case ErrorEvent(_, m) => m
    case DisabledEvent(_) => ""
  }

  /** Dispatches an event to the matching public report call. */
  function Apply<B, A>(r: Reporter<B, A>, e: Event): (res: Result<Reporter<B, A>, Misreport>)
    ensures res == Report(r, e.id, EventStatus(e), EventMessage(e))
  {
    match e
    case PassEvent(id) => ReportPass(r, id)
    case FailureEvent(id, m) => ReportFailure(r, id, m)
    case ErrorEvent(id, m) => ReportError(r, id, m)
    case DisabledEvent(id) => ReportDisabledTest(r, id)
  }

  /** A stream of reports, one atomic step after another; the first refused report ends it. */
  function ApplyAll<B, A>(r: Reporter<B, A>, es: seq<Event>): Result<Reporter<B, A>, Misreport>
    decreases |es|
  {
    if |es| == 0 then Success(r)
    else
      match Apply(r, es[0])
      case Failure(err) => Failure(err)
      case Success(r') => ApplyAll(r', es[1..])
  }

  /** Number of events in `es` that record status `st`. */
  function CountEvents(es: seq<Event>, st: Status): nat
    decreases |es|
  {
    if |es| == 0 then 0 else (if EventStatus(es[0]) == st then 1 else 0) + CountEvents(es[1..], st)
  }

  /** Counting distributes over joining event lists. */
  lemma {:induction false} CountEventsAppend(xs: seq<Event>, ys: seq<Event>, st: Status)
    ensures CountEvents(xs + ys, st) == CountEvents(xs, st) + CountEvents(ys, st)
    decreases |xs|
  {
    if |xs| == 0 {
      assert xs + ys == ys;
    } else {
      assert (xs + ys)[1..] == xs[1..] + ys;
      CountEventsAppend(xs[1..], ys, st);
    }
  }

  lemma {:induction false} ApplyAllKeepsValid<B, A>(r: Reporter<B, A>, es: seq<Event>)
    requires Valid(r)
    requires ApplyAll(r, es).Success?
    ensures Valid(ApplyAll(r, es).value)
    decreases |es|
  {
    if |es| > 0 {
      ReportKeepsValid(r, es[0].id, EventStatus(es[0]), EventMessage(es[0]));
      ApplyAllKeepsValid(Apply(r, es[0]).value, es[1..]);
    }
  }

  /** Events name registered, not yet reported tests, no test twice. */
  predicate FreshEvents<B, A>(r: Reporter<B, A>, es: seq<Event>) {
    && (forall i :: 0 <= i < |es| ==> Registered(r.suites, es[i].id) && ResultOf(r.suites, es[i].id) == NotRun)
    && (forall i, j :: 0 <= i < j < |es| ==> es[i].id != es[j].id)
  }

  /**
   Reports on distinct, not yet reported tests are all accepted, and each
   counter grows by the number of events of its kind.
   */
  lemma {:induction false} FreshEventsAccepted<B, A>(r: Reporter<B, A>, es: seq<Event>)
    requires FreshEvents(r, es)
    ensures ApplyAll(r, es).Success?
    ensures forall st :: st != NotRun ==> CounterOf(ApplyAll(r, es).value, st) == CounterOf(r, st) + CountEvents(es, st)
    decreases |es|
  {
    if |es| > 0 {
      FreshEventsTail(r, es);
      FreshEventsAccepted(Apply(r, es[0]).value, es[1..]);
    }
  }

  /** After the first of a fresh stream of events, the rest is still fresh. */
  lemma FreshEventsTail<B, A>(r: Reporter<B, A>, es: seq<Event>)
    requires FreshEvents(r, es) && |es| > 0
    ensures Apply(r, es[0]).Success?
    ensures FreshEvents(Apply(r, es[0]).value, es[1..])
  {
    var r' := Apply(r, es[0]).value;
    forall i | 0 <= i < |es[1..]|
      ensures Registered(r'.suites, es[1..][i].id) && ResultOf(r'.suites, es[1..][i].id) == NotRun
    {
      assert es[1..][i] == es[i + 1];
    }
  }

  /** Reports on other tests leave a test's slot as it was. */
  lemma {:induction false} ApplyAllFrame<B, A>(r: Reporter<B, A>, es: seq<Event>, x: FullId)
    requires ApplyAll(r, es).Success?
    requires Registered(r.suites, x)
    requires forall i :: 0 <= i < |es| ==> es[i].id != x
    ensures Registered(ApplyAll(r, es).value.suites, x)
    ensures ApplyAll(r, es).value.suites[x.suite].tests[x.test] == r.suites[x.suite].tests[x.test]
    decreases |es|
  {
    if |es| > 0 {
      forall i | 0 <= i < |es[1..]|
        ensures es[1..][i].id != x
      {
        assert es[1..][i] == es[i + 1];
      }
      ApplyAllFrame(Apply(r, es[0]).value, es[1..], x);
    }
  }

  /**
   A fresh stream of events is recorded in full: afterwards each event's test
   holds the status and message of its event.
   */
  lemma {:induction false} ApplyAllRecords<B, A>(r: Reporter<B, A>, es: seq<Event>)
    requires FreshEvents(r, es)
    ensures ApplyAll(r, es).Success?
    ensures forall i :: 0 <= i < |es| ==>
      var after := ApplyAll(r, es).value.suites;
      && Registered(after, es[i].id)
      && ResultOf(after, es[i].id) == EventStatus(es[i])
      && MessageOf(after, es[i].id) == EventMessage(es[i])
    decreases |es|
  {
    FreshEventsAccepted(r, es);
    if |es| > 0 {
      FreshEventsTail(r, es);
      var r' := Apply(r, es[0]).value;
      ApplyAllRecords(r', es[1..]);
      forall i | 0 <= i < |es[1..]|
        ensures es[1..][i].id != es[0].id
      {
        assert es[1..][i] == es[i + 1];
      }
      ApplyAllFrame(r', es[1..], es[0].id);
      forall i | 1 <= i < |es|
        ensures es[i] == es[1..][i - 1]
      {
      }
    }
  }

  /** Under valid counters every suite satisfies the assertion in `num_skipped()`. */
  lemma ValidSuitesHaveSkipCount<B, A>(r: Reporter<B, A>)
    requires Valid(r)
    ensures forall sn :: sn in r.suites ==>
      && NumNonSkipped(r.suites[sn]) <= Size(r.suites[sn])
      && NumSkipped(r.suites[sn]) == |WithStatus(r.suites[sn].tests, NotRun)|
  {
    forall sn | sn in r.suites
      ensures NumNonSkipped(r.suites[sn]) <= Size(r.suites[sn])
      ensures NumSkipped(r.suites[sn]) == |WithStatus(r.suites[sn].tests, NotRun)|
    {
      NumSkippedCountsNotRun(r.suites[sn]);
    }
  }

  /** `is_failed()` holds exactly when some test has failed or errored. */
  lemma IsFailedIffSomeTestFailed<B, A>(r: Reporter<B, A>)
    requires Valid(r)
    ensures IsFailed(r) <==>
      exists x :: Registered(r.suites, x) && (ResultOf(r.suites, x) == Failed || ResultOf(r.suites, x) == Errored)
  {
    if IsFailed(r) {
      var st := if r.numFailed != 0 then Failed else Errored;
      var x :| x in AllWithStatus(r.suites, st);
      AllWithStatusMember(r.suites, st, x);
    }
    if x :| Registered(r.suites, x) && (ResultOf(r.suites, x) == Failed || ResultOf(r.suites, x) == Errored) {
      AllWithStatusMember(r.suites, ResultOf(r.suites, x), x);
    }
  }

  lemma AllTestsMember<B, A>(suites: map<string, Suite<B, A>>, x: FullId)
    ensures x in AllTests(suites) <==> Registered(suites, x)
  {
    if Registered(suites, x) {
      assert x == FullId(x.suite, x.test);
    }
  }

  lemma StatusSetsDisjoint<B, A>(suites: map<string, Suite<B, A>>, st1: Status, st2: Status)
    requires st1 != st2
    ensures AllWithStatus(suites, st1) !! AllWithStatus(suites, st2)
  {
    forall x | x in AllWithStatus(suites, st1)
      ensures x !in AllWithStatus(suites, st2)
    {
      AllWithStatusMember(suites, st1, x);
      AllWithStatusMember(suites, st2, x);
    }
  }

  lemma StatusSetsCover<B, A>(suites: map<string, Suite<B, A>>)
    ensures AllTests(suites)
         == AllWithStatus(suites, NotRun) + AllWithStatus(suites, Passed) + AllWithStatus(suites, Failed)
          + AllWithStatus(suites, Errored) + AllWithStatus(suites, Status.Disabled)
  {
    forall x
      ensures x in AllTests(suites)
          <==> x in AllWithStatus(suites, NotRun) + AllWithStatus(suites, Passed) + AllWithStatus(suites, Failed)
                  + AllWithStatus(suites, Errored) + AllWithStatus(suites, Status.Disabled)
    {
      AllTestsMember(suites, x);
      AllWithStatusMember(suites, NotRun, x);
      AllWithStatusMember(suites, Passed, x);
      AllWithStatusMember(suites, Failed, x);
      AllWithStatusMember(suites, Errored, x);
      AllWithStatusMember(suites, Status.Disabled, x);
    }
  }

  /** The counters and the tests still not run account for every registered test. */
  lemma CountersCoverTests<B, A>(r: Reporter<B, A>)
    requires Valid(r)
    ensures r.numPassed + r.numFailed + r.numErrors + r.numDisabled + |AllWithStatus(r.suites, NotRun)|
         == |AllTests(r.suites)|
  {
    var n, p, f, e, d :=
      AllWithStatus(r.suites, NotRun), AllWithStatus(r.suites, Passed), AllWithStatus(r.suites, Failed),
      AllWithStatus(r.suites, Errored), AllWithStatus(r.suites, Status.Disabled);
    StatusSetsCover(r.suites);
    StatusSetsDisjoint(r.suites, NotRun, Passed);
    StatusSetsDisjoint(r.suites, NotRun, Failed);
    StatusSetsDisjoint(r.suites, NotRun, Errored);
    StatusSetsDisjoint(r.suites, NotRun, Status.Disabled);
    StatusSetsDisjoint(r.suites, Passed, Failed);
    StatusSetsDisjoint(r.suites, Passed, Errored);
    StatusSetsDisjoint(r.suites, Passed, Status.Disabled);
    StatusSetsDisjoint(r.suites, Failed, Errored);
    StatusSetsDisjoint(r.suites, Failed, Status.Disabled);
    StatusSetsDisjoint(r.suites, Errored, Status.Disabled);
    assert |n + p| == |n| + |p|;
    assert |n + p + f| == |n + p| + |f|;
    assert |n + p + f + e| == |n + p + f| + |e|;
    assert |n + p + f + e + d| == |n + p + f + e| + |d|;
  }
}

=== FILE: tst_suite.dfy ===
/**
 The `tst::suite` test catalog: test cases keyed by id, each with its marks,
 its result slot and the per-suite outcome counters the reporter fills in.
 */
module TstSuite {
  import opened Wrappers
  import opened Registry

  /** Test marks. */
  datatype Flag = Disabled | NoParallel

  /** A test's result: `NotRun` until the reporter records a terminal status. */
  datatype Status = NotRun | Passed | Failed | Errored | Disabled

  /** `test_info`; the duration slot is not modelled. */
  datatype TestInfo<B, A> = TestInfo(proc: Procedure<B, A>, flags: set<Flag>, result: Status, message: string)

  /** A suite: tests keyed by id, plus the counters the reporter increments. */
  datatype Suite<B, A> = Suite(
    tests: map<string, TestInfo<B, A>>,
    numDisabled: nat,
    numFailed: nat,
    numPassed: nat,
    numErrors: nat)

  /** A freshly constructed suite: no tests, all counters zero. */
  function Empty<B, A>(): Suite<B, A> {
    Suite(map[], 0, 0, 0, 0)
  }

  /** The test a successful registration stores: not run yet, no message. */
  function NewTest<B, A>(proc: Procedure<B, A>, flags: set<Flag>): TestInfo<B, A> {
    TestInfo(proc, flags, NotRun, "")
  }

  /** Number of test cases: one per id. */
  function Size<B, A>(s: Suite<B, A>): nat {
    |s.tests|
  }

  /** Tests in the suite whose result is `st`. */
  function WithStatus<B, A>(tests: map<string, TestInfo<B, A>>, st: Status): set<string> {
    set id | id in tests && tests[id].result == st
  }

  /** Counters agree with the stored results. */
  predicate Consistent<B, A>(s: Suite<B, A>) {
    && s.numPassed == |WithStatus(s.tests, Passed)|
    && s.numFailed == |WithStatus(s.tests, Failed)|
    && s.numErrors == |WithStatus(s.tests, Errored)|
    && s.numDisabled == |WithStatus(s.tests, Status.Disabled)|
  }

  /** Registration leaves the counters alone. */
  predicate SameCounters<B, A>(s: Suite<B, A>, t: Suite<B, A>) {
    && s.numDisabled == t.numDisabled
    && s.numFailed == t.numFailed
    && s.numPassed == t.numPassed
    && s.numErrors == t.numErrors
  }

  function NumNonSkipped<B, A>(s: Suite<B, A>): nat {
    s.numDisabled + s.numErrors + s.numFailed + s.numPassed
  }

  /** `num_skipped()`: the unsigned difference is defined only under its assertion. */
  function NumSkipped<B, A>(s: Suite<B, A>): (r: nat)
    requires NumNonSkipped(s) <= Size(s)
    ensures r <= Size(s)
  {
    Size(s) - NumNonSkipped(s)
  }

  /** The five result sets partition the suite's ids. */
  lemma StatusPartition<B, A>(tests: map<string, TestInfo<B, A>>)
    ensures |WithStatus(tests, NotRun)| + |WithStatus(tests, Passed)| + |WithStatus(tests, Failed)|
            + |WithStatus(tests, Errored)| + |WithStatus(tests, Status.Disabled)| == |tests|
  {
    WithStatusCover(tests);
    WithStatusDisjoint(tests, NotRun, Passed);
    WithStatusDisjoint(tests, NotRun, Failed);
    WithStatusDisjoint(tests, NotRun, Errored);
    WithStatusDisjoint(tests, NotRun, Status.Disabled);
    WithStatusDisjoint(tests, Passed, Failed);
    WithStatusDisjoint(tests, Passed, Errored);
    WithStatusDisjoint(tests, Passed, Status.Disabled);
    WithStatusDisjoint(tests, Failed, Errored);
    WithStatusDisjoint(tests, Failed, Status.Disabled);
    WithStatusDisjoint(tests, Errored, Status.Disabled);
    DisjointUnionSize(
      WithStatus(tests, NotRun), WithStatus(tests, Passed), WithStatus(tests, Failed),
      WithStatus(tests, Errored), WithStatus(tests, Status.Disabled));
  }

  lemma WithStatusDisjoint<B, A>(tests: map<string, TestInfo<B, A>>, st1: Status, st2: Status)
    requires st1 != st2
    ensures WithStatus(tests, st1) !! WithStatus(tests, st2)
  {
  }

  lemma WithStatusCover<B, A>(tests: map<string, TestInfo<B, A>>)
    ensures tests.Keys == WithStatus(tests, NotRun) + WithStatus(tests, Passed) + WithStatus(tests, Failed)
                        + WithStatus(tests, Errored) + WithStatus(tests, Status.Disabled)
  {
    forall k | k in tests
      ensures k in WithStatus(tests, tests[k].result)
    {
    }
  }

  /** The size of a union of five pairwise disjoint sets. */
  lemma DisjointUnionSize<T>(a: set<T>, b: set<T>, c: set<T>, d: set<T>, e: set<T>)
    requires a !! b && a !! c && a !! d && a !! e
    requires b !! c && b !! d && b !! e
    requires c !! d && c !! e && d !! e
    ensures |a + b + c + d + e| == |a| + |b| + |c| + |d| + |e|
  {
    assert |a + b| == |a| + |b|;
    assert (a + b) !! c;
    assert |a + b + c| == |a + b| + |c|;
    assert (a + b + c) !! d;
    assert |a + b + c + d| == |a + b + c| + |d|;
    assert (a + b + c + d) !! e;
  }

  /** With consistent counters, `num_skipped()` is well defined and counts the tests not run. */
  lemma NumSkippedCountsNotRun<B, A>(s: Suite<B, A>)
    requires Consistent(s)
    ensures NumNonSkipped(s) <= Size(s)
    ensures NumSkipped(s) == |WithStatus(s.tests, NotRun)|
  {
    StatusPartition(s.tests);
  }

  /** The empty suite is consistent. */
  lemma EmptyConsistent<B, A>()
    ensures Consistent(Empty<B, A>())
    ensures Size(Empty<B, A>()) == 0
  {
  }

  function Lift<B, A>(s: Suite<B, A>, r: Result<map<string, TestInfo<B, A>>, RegistrationError>)
    : Result<Suite<B, A>, RegistrationError>
  {
    match r
    case Success(m) => Success(s.(tests := m))
    case Failure(e) => Failure(e)
  }

  /** `add(id, flags, proc)`: a new, not yet run test under a fresh id. */
  function Add<B, A>(s: Suite<B, A>, id: string, flags: set<Flag>, body: B): (r: Result<Suite<B, A>, RegistrationError>)
    ensures r.Success? <==> id !in s.tests
    ensures r.Failure? ==> r.error == DuplicateId(id)
    ensures r.Success? ==>
      && r.value.tests.Keys == s.tests.Keys + {id}
      && Size(r.value) == Size(s) + 1
      && r.value.tests[id].result == NotRun
      && r.value.tests[id].message == ""
      && r.value.tests[id].flags == flags
      && r.value.tests[id].proc == Plain(body)
    ensures r.Success? ==> forall k :: k in s.tests ==> r.value.tests[k] == s.tests[k]
    ensures r.Success? ==> SameCounters(r.value, s)
  {
    Lift(s, Insert(s.tests, id, NewTest(Plain(body), flags)))
  }

  /** `add(id, proc)`: no marks. */
  function AddUnmarked<B, A>(s: Suite<B, A>, id: string, body: B): (r: Result<Suite<B, A>, RegistrationError>)
    ensures r.Success? <==> id !in s.tests
    ensures r.Failure? ==> r.error == DuplicateId(id)
    ensures r.Success? ==>
      && r.value.tests.Keys == s.tests.Keys + {id}
      && r.value.tests[id] == TestInfo(Plain(body), {}, NotRun, "")
    ensures r.Success? ==> forall k :: k in s.tests ==> r.value.tests[k] == s.tests[k]
    ensures r.Success? ==> SameCounters(r.value, s)
  {
    Add(s, id, {}, body)
  }

  /** `add_disabled(id, flags, proc)`: as `add`, with the `disabled` mark added. */
  function AddDisabled<B, A>(s: Suite<B, A>, id: string, flags: set<Flag>, body: B)
    : (r: Result<Suite<B, A>, RegistrationError>)
    ensures r.Success? <==> id !in s.tests
    ensures r.Failure? ==> r.error == DuplicateId(id)
    ensures r.Success? ==>
      && r.value.tests.Keys == s.tests.Keys + {id}
      && r.value.tests[id] == TestInfo(Plain(body), flags + {Flag.Disabled}, NotRun, "")
      && Flag.Disabled in r.value.tests[id].flags
      && r.value.tests[id].flags - {Flag.Disabled} == flags - {Flag.Disabled}
    ensures r.Success? ==> forall k :: k in s.tests ==> r.value.tests[k] == s.tests[k]
    ensures r.Success? ==> SameCounters(r.value, s)
  {
    Add(s, id, flags + {Flag.Disabled}, body)
  }

  /** `add_disabled(id, proc)`: the `disabled` mark alone. */
  function AddDisabledUnmarked<B, A>(s: Suite<B, A>, id: string, body: B)
    : (r: Result<Suite<B, A>, RegistrationError>)
    ensures r.Success? <==> id !in s.tests
    ensures r.Failure? ==> r.error == DuplicateId(id)
    ensures r.Success? ==>
      && r.value.tests.Keys == s.tests.Keys + {id}
      && r.value.tests[id] == TestInfo(Plain(body), {Flag.Disabled}, NotRun, "")
    ensures r.Success? ==> forall k :: k in s.tests ==> r.value.tests[k] == s.tests[k]
    ensures r.Success? ==> SameCounters(r.value, s)
  {
    AddDisabled(s, id, {}, body)
  }

  /**
   The one-argument overloads are the flagged ones with no flags given. This
   holds by definition and records the delegation of those overloads.
   */
  lemma UnmarkedOverloadsAddNoFlags<B, A>(s: Suite<B, A>, id: string, body: B)
    ensures AddUnmarked(s, id, body) == Add(s, id, {}, body)
    ensures AddDisabledUnmarked(s, id, body) == AddDisabled(s, id, {}, body)
  {
  }

  /** The parametrized one-argument overloads are likewise the flagged ones with no flags given. */
  lemma UnmarkedParametrizedOverloadsAddNoFlags<B, A>(s: Suite<B, A>, id: string, params: seq<A>, body: B)
    ensures AddParametrizedUnmarked(s, id, params, body) == AddParametrized(s, id, {}, params, body)
    ensures AddDisabledParametrizedUnmarked(s, id, params, body) == AddDisabledParametrized(s, id, {}, params, body)
  {
  }

  /**
   `add_disabled` is `add` with the `disabled` mark added: both accept the same
   ids, fail alike, and on success differ only in the new test's marks.
   */
  lemma DisabledOnlyAddsMark<B, A>(s: Suite<B, A>, id: string, flags: set<Flag>, body: B)
    ensures AddDisabled(s, id, flags, body).Success? <==> Add(s, id, flags, body).Success?
    ensures Add(s, id, flags, body).Failure? ==> AddDisabled(s, id, flags, body) == Add(s, id, flags, body)
    ensures Add(s, id, flags, body).Success? ==>
      var plain := Add(s, id, flags, body).value;
      && AddDisabled(s, id, flags, body).value.tests == plain.tests[id := plain.tests[id].(flags := flags + {Flag.Disabled})]
      && SameCounters(AddDisabled(s, id, flags, body).value, plain)
  {
  }

  /** The tests parametrized registration generates: test `i` runs `proc(params[i])`, carries `flags`, has not run. */
  function ParamTests<B, A>(flags: set<Flag>, params: seq<A>, body: B): (ts: seq<TestInfo<B, A>>)
    ensures |ts| == |params|
    ensures forall i :: 0 <= i < |params| ==> ts[i] == TestInfo(WithParam(body, params[i]), flags, NotRun, "")
  {
    seq(|params|, i requires 0 <= i < |params| => NewTest(WithParam(body, params[i]), flags))
  }

  /** `t` is `s` with `id[k] := tests[k]` added for every `k < hi`; the counters are untouched. */
  ghost predicate RegistersFirst<B, A>(s: Suite<B, A>, t: Suite<B, A>, id: string, tests: seq<TestInfo<B, A>>, hi: nat)
    requires hi <= |tests|
  {
    AddsIndexed(s.tests, t.tests, id, tests, 0, hi) && SameCounters(t, s)
  }

  /**
   What registering `tests` under `id[0]`, `id[1]`, ... does to `s`: it succeeds
   iff no such id is taken, adding every test; otherwise it throws on the first
   taken `id[k]`, and the suite keeps the tests `id[0]` ... `id[k - 1]` it added.
   */
  ghost predicate ParametrizedOutcome<B, A>(s: Suite<B, A>, id: string, tests: seq<TestInfo<B, A>>,
                                            r: Result<Suite<B, A>, Refusal<Suite<B, A>>>)
  {
    && (r.Success? <==> IndexedIdsFree(s.tests, id, 0, |tests|))
    && (r.Success? ==> RegistersFirst(s, r.value, id, tests, |tests|))
    && (r.Failure? ==>
          exists k: nat :: && k < |tests|
                           && FirstTaken(s.tests, id, 0, k)
                           && r.error.cause == DuplicateId(IndexedId(id, k))
                           && RegistersFirst(s, r.error.reached, id, tests, k))
  }

  function LiftIndexed<B, A>(s: Suite<B, A>, r: Result<map<string, TestInfo<B, A>>, Refusal<map<string, TestInfo<B, A>>>>)
    : Result<Suite<B, A>, Refusal<Suite<B, A>>>
  {
    match r
    case Success(m) => Success(s.(tests := m))
    case Failure(Refusal(e, m)) => Failure(Refusal(e, s.(tests := m)))
  }

  /**
   Parametrized `add(id, flags, params, proc)`: one test `id[i]` per parameter,
   each running `proc(params[i])` and carrying exactly `flags`.
   */
  function AddParametrized<B, A>(s: Suite<B, A>, id: string, flags: set<Flag>, params: seq<A>, body: B)
    : (r: Result<Suite<B, A>, Refusal<Suite<B, A>>>)
    ensures ParametrizedOutcome(s, id, ParamTests(flags, params, body), r)
  {
    LiftIndexed(s, InsertIndexed(s.tests, id, ParamTests(flags, params, body), 0))
  }

  /** Parametrized `add(id, params, proc)`: no marks. */
  function AddParametrizedUnmarked<B, A>(s: Suite<B, A>, id: string, params: seq<A>, body: B)
    : (r: Result<Suite<B, A>, Refusal<Suite<B, A>>>)
    ensures ParametrizedOutcome(s, id, ParamTests({}, params, body), r)
  {
    AddParametrized(s, id, {}, params, body)
  }

  /** Parametrized `add_disabled(id, flags, params, proc)`: sets `disabled`, then as `add`. */
  function AddDisabledParametrized<B, A>(s: Suite<B, A>, id: string, flags: set<Flag>, params: seq<A>, body: B)
    : (r: Result<Suite<B, A>, Refusal<Suite<B, A>>>)
    ensures ParametrizedOutcome(s, id, ParamTests(flags + {Flag.Disabled}, params, body), r)
  {
    AddParametrized(s, id, flags + {Flag.Disabled}, params, body)
  }

  /** Parametrized `add_disabled(id, params, proc)`: the `disabled` mark alone. */
  function AddDisabledParametrizedUnmarked<B, A>(s: Suite<B, A>, id: string, params: seq<A>, body: B)
    : (r: Result<Suite<B, A>, Refusal<Suite<B, A>>>)
    ensures ParametrizedOutcome(s, id, ParamTests({Flag.Disabled}, params, body), r)
  {
    AddDisabledParametrized(s, id, {}, params, body)
  }

  /** Disabled parametrized registration differs from plain only in the `disabled` mark. */
  lemma DisabledParametrizedOnlyAddsMark<B, A>(s: Suite<B, A>, id: string, flags: set<Flag>, params: seq<A>, body: B)
    requires IndexedIdsFree(s.tests, id, 0, |params|)
    ensures AddDisabledParametrized(s, id, flags, params, body).Success?
    ensures AddParametrized(s, id, flags, params, body).Success?
    ensures AddDisabledParametrized(s, id, flags, params, body).value.tests.Keys
         == AddParametrized(s, id, flags, params, body).value.tests.Keys
    ensures forall i :: 0 <= i < |params| ==>
      var plain := AddParametrized(s, id, flags, params, body).value.tests[IndexedId(id, i)];
      AddDisabledParametrized(s, id, flags, params, body).value.tests[IndexedId(id, i)]
        == plain.(flags := plain.flags + {Flag.Disabled})
    ensures forall k :: k in s.tests ==>
      AddDisabledParametrized(s, id, flags, params, body).value.tests[k]
        == AddParametrized(s, id, flags, params, body).value.tests[k]
    ensures SameCounters(AddDisabledParametrized(s, id, flags, params, body).value,
                         AddParametrized(s, id, flags, params, body).value)
  {
    var plain := AddParametrized(s, id, flags, params, body).value;
    var disabled := AddDisabledParametrized(s, id, flags, params, body).value;
    AddsIndexedSameKeys(s.tests, disabled.tests, plain.tests, id,
      ParamTests(flags + {Flag.Disabled}, params, body), ParamTests(flags, params, body), 0, |params|);
  }

  /**
   When plain parametrized registration fails, the disabled form fails on the
   same id, having added tests under the same ids before it.
   */
  lemma DisabledParametrizedFailsAlike<B, A>(s: Suite<B, A>, id: string, flags: set<Flag>, params: seq<A>, body: B)
    requires AddParametrized(s, id, flags, params, body).Failure?
    ensures AddDisabledParametrized(s, id, flags, params, body).Failure?
    ensures AddDisabledParametrized(s, id, flags, params, body).error.cause
         == AddParametrized(s, id, flags, params, body).error.cause
    ensures AddDisabledParametrized(s, id, flags, params, body).error.reached.tests.Keys
         == AddParametrized(s, id, flags, params, body).error.reached.tests.Keys
  {
    var plain := AddParametrized(s, id, flags, params, body).error;
    var disabled := AddDisabledParametrized(s, id, flags, params, body).error;
    var ts := ParamTests(flags, params, body);
    var ds := ParamTests(flags + {Flag.Disabled}, params, body);
    var k: nat :| && k < |ts| && FirstTaken(s.tests, id, 0, k)
                  && plain.cause == DuplicateId(IndexedId(id, k))
                  && RegistersFirst(s, plain.reached, id, ts, k);
    var k': nat :| && k' < |ds| && FirstTaken(s.tests, id, 0, k')
                   && disabled.cause == DuplicateId(IndexedId(id, k'))
                   && RegistersFirst(s, disabled.reached, id, ds, k');
    FirstTakenUnique(s.tests, id, 0, k, k');
    AddsIndexedSameKeys(s.tests, disabled.reached.tests, plain.reached.tests, id, ds, ts, 0, k);
  }

  /** `t` extends `s` with tests that have not run, leaving the counters alone. */
  ghost predicate ExtendsNotRun<B, A>(s: Suite<B, A>, t: Suite<B, A>) {
    && SameCounters(s, t)
    && (forall k :: k in s.tests ==> k in t.tests && t.tests[k] == s.tests[k])
    && (forall k :: k in t.tests && k !in s.tests ==> t.tests[k].result == NotRun)
  }

  lemma ExtendsNotRunKeepsConsistent<B, A>(s: Suite<B, A>, t: Suite<B, A>)
    requires Consistent(s)
    requires ExtendsNotRun(s, t)
    ensures Consistent(t)
  {
    forall st | st != NotRun
      ensures WithStatus(t.tests, st) == WithStatus(s.tests, st)
    {
      assert forall k :: k in WithStatus(t.tests, st) ==> k in s.tests;
    }
  }

  /** Registration keeps a consistent suite consistent: new tests are not run. */
  lemma AddKeepsConsistent<B, A>(s: Suite<B, A>, id: string, flags: set<Flag>, body: B)
    requires Consistent(s)
    requires Add(s, id, flags, body).Success?
    ensures Consistent(Add(s, id, flags, body).value)
  {
    ExtendsNotRunKeepsConsistent(s, Add(s, id, flags, body).value);
  }

  /** Parametrized registration keeps a consistent suite consistent, whether it succeeds or stops part-way. */
  lemma AddParametrizedKeepsConsistent<B, A>(s: Suite<B, A>, id: string, flags: set<Flag>, params: seq<A>, body: B)
    requires Consistent(s)
    ensures var r := AddParametrized(s, id, flags, params, body);
      && (r.Success? ==> Consistent(r.value))
      && (r.Failure? ==> Consistent(r.error.reached))
  {
    var r := AddParametrized(s, id, flags, params, body);
    var ts := ParamTests(flags, params, body);
    if r.Success? {
      RegistersFirstKeepsConsistent(s, r.value, id, ts, |ts|);
    } else {
      var k: nat :| && k < |ts| && FirstTaken(s.tests, id, 0, k)
                    && r.error.cause == DuplicateId(IndexedId(id, k))
                    && RegistersFirst(s, r.error.reached, id, ts, k);
      RegistersFirstKeepsConsistent(s, r.error.reached, id, ts, k);
    }
  }

  lemma RegistersFirstKeepsConsistent<B, A>(s: Suite<B, A>, t: Suite<B, A>, id: string, tests: seq<TestInfo<B, A>>, hi: nat)
    requires hi <= |tests|
    requires Consistent(s)
    requires RegistersFirst(s, t, id, tests, hi)
    requires forall i :: 0 <= i < hi ==> tests[i].result == NotRun
    ensures Consistent(t)
  {
    forall k | k in t.tests && k !in s.tests
      ensures t.tests[k].result == NotRun
    {
      var i :| 0 <= i < hi && k == IndexedId(id, i);
    }
    ExtendsNotRunKeepsConsistent(s, t);
  }
}

=== FILE: wrappers.dfy ===
/** Failure-carrying result types used in place of C++ exceptions. */
module Wrappers {

  /** A value that may be absent (an empty std::function, a failed parse). */
  datatype Option<+T> = None | Some(value: T)

  /** Either a computed value or the error the C++ code would have thrown. */
  datatype Result<+T, +E> = Success(value: T) | Failure(error: E)
}
